=== FILE: README.md ===
# Blog generator: a Dafny model

A model of the two halves of a Next.js blog generator and proofs about them.

The server side is the `POST` handler in `src/app/api/generate/route.ts`. It turns a
`{ title, keywords, perspective }` request body into an instruction for a streaming
chat-completion service. It then relays that service's server-sent event stream to
the browser as plain text fragments.

The client side is the page component in `src/app/page.tsx`. It parses the keyword
field and posts the request. It appends every chunk it reads to a buffer and shows
the buffer after a markdown-stripping `formatContent`. It maps failures to
messages, and its stop button aborts the request.

Modules, one per file:

- `Wrappers`: `Option`.
- `Strings`: the JavaScript string operations the code relies on: `trim` with the
  ECMAScript white-space set, `split` on a literal separator, `join`, and global
  literal `replace` by the empty string. It also holds the lemmas about them.
- `Format`: `formatContent` and its properties.
- `Prompt`: the request body, the perspective table and the prompt builder.
- `Decoder`: the per-chunk decoding of the upstream event stream into text
  fragments.
- `Relay`: the `POST` handler as one exchange. The inputs are the parsed body, the
  configured key, the upstream reply and a payload extractor. The output is the
  request sent upstream, if any, and the response.
- `Client`: the page state, keyword parsing, the button, the stop handler and
  `handleGenerate`.

Behaviour of the code worth knowing:

- Every upstream chunk is split on `\n` on its own. No partial line is carried over
  to the next chunk, so a `data:` line cut by a chunk boundary is lost
  (`Decoder.SplitFrameLost`, `Decoder.SplitPayloadLost`).
- `formatContent` is not idempotent. `"-**--"` formats to `"---"`, and that formats
  to `""` (`Format.FormatNotIdempotent`).
- A perspective key outside the table yields the text `undefined` in the prompt.
  An empty or omitted key falls back to `casual-blogger`.
- A body that fails to parse as JSON is caught by the outer handler before the key
  check, so it yields the generic 500 even when no key is configured.
- `[DONE]` is only skipped, not treated as the end. Lines after it in the same
  chunk are still decoded (`Decoder.DoneDoesNotStop`).

## Model

| member | source | states |
|---|---|---|
| Strings.Trim | src/app/api/generate/route.ts:90 | `trim()` yields a string with no white space at either end, and it is empty exactly when the input is all white space |
| Strings.TrimCut | src/app/api/generate/route.ts:90 | the result of `trim()` is a contiguous slice of the input, with only white space before it and only white space after it |
| Strings.Split | src/app/page.tsx:21 | `split` on a literal separator always yields at least one piece |
| Strings.Join | src/app/page.tsx:24 | `join` puts the separator between consecutive parts; `Strings.SplitJoin` and `Strings.SplitOfJoin` relate it to `split` |
| Strings.RemoveAll | src/app/page.tsx:18-20 | a global literal `replace` by `''` never lengthens the text and adds no character |
| Strings.RemoveAllKeepsPieces | src/app/page.tsx:18-20 | removing every occurrence of a pattern is splitting at its occurrences and concatenating the pieces, so exactly the occurrences `split` cuts at are removed |
| Strings.SplitJoin | src/app/page.tsx:21 | splitting on a separator and joining with it gives back the original string, so `split` loses no character |
| Strings.SplitCharCount | src/app/page.tsx:63 | splitting on a one-character separator yields one more piece than there are occurrences of it |
| Strings.SplitOfJoin | src/app/api/generate/route.ts:25 | joining parts free of the separator's first character and splitting again recovers the parts |
| Strings.RemoveAllNoPair | src/app/page.tsx:20 | after the global removal of `**` no two adjacent `*` remain |
| Strings.RemoveOneOccurrence | src/app/page.tsx:18-20 | a single occurrence of the pattern between clean text is removed and nothing else changes |
| Format.StripMarkers | src/app/page.tsx:17-20 | after removing `---`, `###` and `**` in that order the text has no `**` left and no new characters, and text containing none of the three markers comes back unchanged |
| Format.KeepParagraphs | src/app/page.tsx:22-23 | the filter and trim over lines keeps at most one entry per line; its shape is stated by the `KeepParagraphs*` lemmas |
| Format.FormatContent | src/app/page.tsx:15-25 | `formatContent` is the marker removal, the paragraph filter and the join with a blank line; its properties are the `Format*` lemmas that follow |
| Format.Paragraphs | src/app/page.tsx:21-23 | the kept lines of the marker-stripped text; stated by `Format.ParagraphShape` and `Format.ParagraphsEmptyIff` |
| Format.ParagraphsEmptyIff | src/app/page.tsx:21-23 | no paragraph is kept exactly when the marker-stripped text is blank |
| Format.KeepParagraphsEmptyIff | src/app/page.tsx:22-23 | the filtered line list is empty exactly when every line is blank |
| Format.KeepParagraphsAppend | src/app/page.tsx:22-23 | filtering and trimming lines distributes over concatenation, so line order is kept |
| Format.ParagraphShape | src/app/page.tsx:15-25 | every paragraph is non-empty, holds no line feed, is trimmed and contains no `**` |
| Format.FormatHasNoBold | src/app/page.tsx:15-25 | the formatted text never contains `**` |
| Format.FormatSplitsIntoParagraphs | src/app/page.tsx:21-24 | non-empty formatted text splits on the blank-line separator back into exactly its paragraphs |
| Format.FormatEmptyIff | src/app/page.tsx:15-25 | the formatted text is empty exactly when the text left after marker removal is blank |
| Format.FormatBlankInput | src/app/page.tsx:15-25 | blank content formats to the empty string |
| Format.FormatHeadingExample | src/app/page.tsx:15-25 | bold title, blank line, `### ` heading and a `---` rule format to the two words separated by one blank line |
| Format.FormatExample | src/app/page.tsx:15-25 | the concrete input `**Hello**\n\n### World\n---\n` formats to `Hello\n\nWorld` |
| Format.DashesFormat | src/app/page.tsx:18-20 | removing `**` after `---` can create a new `---`: `-**--` formats to `---` |
| Format.FormatNotIdempotent | src/app/page.tsx:15-25 | formatting already formatted text can change it again |
| Prompt.Instruction | src/app/api/generate/route.ts:30-36 | the five perspective sentences, verbatim; stated by `Prompt.InstructionSelection` and `Prompt.InstructionsDistinct` |
| Prompt.LookupKey | src/app/api/generate/route.ts:30-36 | a key is found exactly when it is one of the five perspective keys, and it maps to that perspective |
| Prompt.ResolvePerspective | src/app/api/generate/route.ts:38 | the fallback to `casual-blogger` for a missing or empty key, then the table lookup; stated by `Prompt.InstructionSelection` |
| Prompt.InstructionText | src/app/api/generate/route.ts:38-39 | the perspective sentence for the request's key, `undefined` for a key outside the table; stated by `Prompt.InstructionSelection` |
| Prompt.InstructionSelection | src/app/api/generate/route.ts:38-39 | an omitted or empty perspective selects the casual-blogger sentence, each key selects its own sentence, and any other key gives `undefined` |
| Prompt.BuildPrompt | src/app/api/generate/route.ts:20-40 | the prompt opens with the 500-word request, closes with the word-limit reminder, and has the perspective sentence after `. ` right before it |
| Prompt.PromptLayout | src/app/api/generate/route.ts:20-40 | the prompt is exactly the opening, the title clause, the topics clause, `. `, the perspective sentence and the closing, in that order |
| Prompt.TitleClause | src/app/api/generate/route.ts:21-23 | the optional ` about <title>` clause; stated by `Prompt.TitleClausePlacement` |
| Prompt.TopicsClause | src/app/api/generate/route.ts:24-26 | the optional topics clause; stated by `Prompt.TopicsClausePlacement` |
| Prompt.TitleClausePlacement | src/app/api/generate/route.ts:21-23 | ` about <title>` follows the opening exactly when a non-empty title was given |
| Prompt.TopicsClausePlacement | src/app/api/generate/route.ts:24-26 | the topics clause follows exactly when the keyword list is non-empty, and lists the keywords joined by `, ` in order |
| Prompt.EmptyKeywordStillIntroducesTopics | src/app/api/generate/route.ts:24-26 | a list holding one empty keyword still introduces a topics clause that lists nothing |
| Prompt.InstructionsDistinct | src/app/api/generate/route.ts:30-36 | the five perspective sentences are pairwise different |
| Prompt.AllFieldsOmitted | src/app/api/generate/route.ts:20-40 | an empty body yields the opening, the casual-blogger sentence and the closing only |
| Decoder.Payload | src/app/api/generate/route.ts:90 | the payload after `data: ` is trimmed |
| Decoder.PayloadCut | src/app/api/generate/route.ts:90 | the payload is the text after the six-character `data: ` with a blank prefix and a blank suffix cut off |
| Decoder.LooksLikeJson | src/app/api/generate/route.ts:95 | the bracket test: at least two characters, opening with `[` or `{`, closing with `]` or `}`, and no line terminator in between, since `.` matches none |
| Decoder.DecodeLine | src/app/api/generate/route.ts:88-110 | a line yields at most one non-empty fragment, and a line not starting with `data: ` yields nothing |
| Decoder.DecodeLineSkips | src/app/api/generate/route.ts:91-108 | an empty payload, `[DONE]`, a payload failing the bracket test, and one failing the parse are all skipped; what is emitted is the extracted content |
| Decoder.DecodeLineEmits | src/app/api/generate/route.ts:89-104 | a trimmed bracketed payload that carries text yields exactly that text |
| Decoder.DecodeLineIff | src/app/api/generate/route.ts:89-104 | a `data: ` line, padded or not, yields a text exactly when its trimmed payload is neither empty nor `[DONE]`, passes the bracket test and parses to non-empty text, and then yields that text |
| Decoder.CrlfLineEmits | src/app/api/generate/route.ts:86-104 | a text frame whose line keeps the `\r` of CRLF framing still yields its text |
| Decoder.PayloadIgnoresPadding | src/app/api/generate/route.ts:90 | trailing white space, including a `\r` from CRLF framing, does not change the payload |
| Decoder.NotJsonExample | src/app/api/generate/route.ts:95-97 | the line `data: not-json` yields nothing |
| Decoder.DoneMarkerLooksLikeJson | src/app/api/generate/route.ts:91-95 | `[DONE]` passes the bracket test, so only its own check keeps it from the parser |
| Decoder.NonJsonPayloadSkipped | src/app/api/generate/route.ts:95-98 | a payload not opening with `[` or `{` is skipped whatever the parser would make of it |
| Decoder.DecodeLines | src/app/api/generate/route.ts:88 | the lines decoded in order, at most one fragment per line; order is stated by `Decoder.DecodeLinesAppend` |
| Decoder.DecodeLinesNonEmpty | src/app/api/generate/route.ts:102-104 | only non-empty fragments are enqueued |
| Decoder.DecodeLinesAppend | src/app/api/generate/route.ts:88 | fragments come out in line order |
| Decoder.BadLineSkipped | src/app/api/generate/route.ts:105-109 | a line that yields nothing does not disturb the lines around it |
| Decoder.DoneDoesNotStop | src/app/api/generate/route.ts:91 | lines after `[DONE]` are still decoded |
| Decoder.DecodeChunk | src/app/api/generate/route.ts:85-88 | one chunk is split on `\n` and its lines are decoded in order; stated by the `DecodeChunk*` lemmas |
| Decoder.DecodeStream | src/app/api/generate/route.ts:78-88 | each chunk is decoded on its own and the fragments run together in chunk order; stated by `Decoder.DecodeStreamAppend` |
| Decoder.DecodeChunkAtNewline | src/app/api/generate/route.ts:86 | decoding a chunk distributes over a line feed inside it |
| Decoder.DecodeChunkBound | src/app/api/generate/route.ts:86-88 | a chunk yields at most one fragment per line |
| Decoder.DecodeStreamAppend | src/app/api/generate/route.ts:78-86 | a stream's fragments are its chunks' fragments in chunk order |
| Decoder.DecodeStreamNonEmpty | src/app/api/generate/route.ts:102-103 | every fragment of a whole stream is non-empty |
| Decoder.SplitFrameLost | src/app/api/generate/route.ts:85-86 | a `data:` line delivered whole yields its text, but cut into two chunks anywhere inside its `data: ` prefix it yields nothing |
| Decoder.SplitPayloadLost | src/app/api/generate/route.ts:85-95 | cut inside its payload, where the first part is not bracket-shaped and the second does not open a `data: ` line, the line also yields nothing |
| Decoder.FrameThenDone | src/app/api/generate/route.ts:85-111 | a chunk with one text frame, a blank line and the `[DONE]` frame yields just that text |
| Relay.HasKey | src/app/api/generate/route.ts:13 | `!DEEPSEEK_API_KEY` rejects an unset and an empty key alike; stated by `Relay.Post` |
| Relay.UpstreamFor | src/app/api/generate/route.ts:42-60 | the upstream request for a body and a key; stated by `Relay.SentRequest` |
| Relay.Post | src/app/api/generate/route.ts:8-127 | a request goes upstream exactly when the body parsed and a non-empty key is set; a missing key gives a 500 with the key message; an unparsable body, a failed fetch or a non-ok status gives a 500 with the generic message; a stream is returned exactly for an ok upstream reply |
| Relay.SentRequest | src/app/api/generate/route.ts:42-60 | the upstream request carries `Bearer <key>`, the built prompt, model `deepseek-chat`, temperature 0.7, 2000 tokens and streaming |
| Relay.Relayed | src/app/api/generate/route.ts:67-119 | no reader gives an empty stream that closes; otherwise the decoded fragments of every chunk are enqueued, and the stream errors exactly when a read failed |
| Relay.StreamedFragments | src/app/api/generate/route.ts:67-121 | the streamed fragments are the decoded chunks and are all non-empty |
| Relay.RelayConcatenates | src/app/api/generate/route.ts:78-112 | relaying distributes over the chunk sequence |
| Relay.ReadFailureKeepsFragments | src/app/api/generate/route.ts:113-114 | a failed read errors the stream after enqueuing the same fragments a clean end would have enqueued |
| Client.Initial | src/app/page.tsx:28-36 | the first render's state; stated by `Client.InitiallyDisabled` and `Client.InitialPerspectiveSentence` |
| Client.TrimEach | src/app/page.tsx:63 | `.map((k) => k.trim())` keeps the number of items |
| Client.TrimEachAt | src/app/page.tsx:63 | the i-th item of `.map((k) => k.trim())` is the i-th piece trimmed |
| Client.ParseKeywords | src/app/page.tsx:63 | the keyword field gives one more item than it has commas; item i is the i-th comma-separated piece trimmed, so it is trimmed and comma-free |
| Client.ParseEmptyField | src/app/page.tsx:63 | an empty field still gives one empty keyword |
| Client.ParseJoinedKeywords | src/app/page.tsx:63 | parsing keywords joined by `, ` gives back those keywords when they are trimmed and comma-free |
| Client.ButtonRule | src/app/page.tsx:191-192 | while generating the button is enabled and stops; when idle it starts a generation and is disabled exactly when both fields are empty |
| Client.ButtonPress | src/app/page.tsx:191 | the click handler: stop while generating, start otherwise; stated by `Client.ButtonRule` |
| Client.ButtonDisabled | src/app/page.tsx:192 | the button is disabled when idle with both fields empty; stated by `Client.ButtonRule` |
| Client.InitiallyDisabled | src/app/page.tsx:28-36 | the first render has a disabled button |
| Client.Stop | src/app/page.tsx:38-44 | with a controller held, stopping drops it and leaves the generating state; without one nothing changes; the text, the message and the form fields are kept |
| Client.StopIdempotent | src/app/page.tsx:38-44 | stopping twice is stopping once |
| Client.Failure | src/app/page.tsx:69-75 | a response that is not ok or has no body is an ordinary error, a rejection passes its own error on, and there is no failure exactly for a stream that finished; an abort comes only from a rejected fetch or read |
| Client.ErrorMessage | src/app/page.tsx:88-93 | the message is empty exactly without a failure, and is the stopped message exactly for an abort |
| Client.ReadAll | src/app/page.tsx:80-87 | the buffer ends as all chunks concatenated, and after each read the display is the rendering of everything read so far |
| Client.Generate | src/app/page.tsx:46-98 | the request carries the title, the parsed keywords and the perspective; one display per chunk shows the formatted buffer so far; the final state is the settled state |
| Client.RequestFor | src/app/page.tsx:61-65 | the posted body: the title field, the parsed keywords and the perspective; stated by `Client.Generate`, `Client.PageRequestHasTopics` and `Client.EmptyTitleFieldHasNoClause` |
| Client.Settled | src/app/page.tsx:88-97 | the state after `catch` and `finally`: the formatted buffer, the failure's message, idle, no controller; stated by `Client.SettledIsIdle` |
| Client.SettledIsIdle | src/app/page.tsx:88-97 | every ending leaves the page idle with no controller and the message its failure calls for |
| Client.DisplayIgnoresChunking | src/app/page.tsx:85-86 | the final display depends only on the text received, not on how it was cut into chunks |
| Client.FailureKeepsText | src/app/page.tsx:85-93 | text read before a failure stays on display |
| Client.EarlyFailureShowsNothing | src/app/page.tsx:50 | a failure before any text arrives leaves the display empty |
| Client.PageRequestHasTopics | src/app/page.tsx:63 | the page always sends a non-empty keyword list, so its prompts always have the topics clause |
| Client.EmptyTitleFieldHasNoClause | src/app/page.tsx:62 | an empty title field adds no title clause |
| Client.InitialPerspectiveSentence | src/app/page.tsx:30 | the initial perspective selects the software-engineer sentence |

## Left out

- The network, `fetch`, `ReadableStream`, the reader and the abort signal are not modelled as such. Their outcomes are inputs: `Relay.UpstreamReply` and `Client.Reply`.
- `JSON.parse` and reading `choices[0].delta.content` are a parameter (`Decoder.Extractor`), because the JSON grammar is outside this model.
- `TextDecoder`: chunks are given as already decoded strings. A multi-byte character split across two reads, which `decode` without `stream: true` would mangle, is not modelled.
- Characters are Unicode scalar values, not UTF-16 code units. Lengths of text outside the Basic Multilingual Plane differ from JavaScript's.
- Looking up an inherited property name such as `toString` in the perspective table is modelled as a missing key (`undefined`), not as the function text JavaScript would print.
- A request body that parses to something other than an object with the declared field types (`null`, a string, keywords that are not an array of strings) is not modelled. `Relay.Post` takes either an unparsable body (`None`) or a well-typed `BlogRequest`.
- The upstream URL and the `Content-Type` headers are not part of the model.
- The `console.warn` and `console.error` logging and `reader.releaseLock()` are not modelled, because they do not change any result.
- React rendering, state batching, the animation and the copy button (`handleCopy`) are not modelled. The state after a handler is the state React settles on.
- Starting a second generation while one is running, and an abort racing a read, are not modelled. `Client.Generate` takes one reply that already records how the request ended.
- An `enqueue` after the client cancelled the response stream is not modelled.
- Relay.ReadFailureKeepsFragments: `fragments` is what the handler enqueued. `controller.error` discards any enqueued fragment the client has not read yet, so the model does not say how much of it the client receives.
- Client.Generate: it returns the displays in order but does not model React showing only some of them when updates are batched.

=== FILE: client.dfy ===
/** The page component of src/app/page.tsx, reduced to its state and its
    handlers: the form fields, the accumulated text and its formatted display,
    the generating flag, the error message and whether an abort controller is
    held.

    The fetch, the body reader and the text decoder are abstracted by a
    `Reply`: how far the request got and which text chunks were read before
    it ended. React's rendering and state batching are not modelled; the
    state after a handler is the state React settles on. */
module Client {
  import opened Wrappers
  import opened Strings
  import opened Format
  import opened Prompt

  const InitialPerspective := "software-engineer"
  const KeywordSeparator := ","
  const StoppedMessage := "Generation stopped by user."
  // Written as two pieces, like the long literals of the prompt, so that the
  // verifier reasons about short strings.
  const FailedMessage := "Failed to generate blog post. " + "Please try again."

  datatype Ui = Ui(
    title: string,
    keywords: string,
    perspective: string,
    generated: string,
    generating: bool,
    error: string,
    controllerLive: bool,
    buffer: string)

  /** The first render: empty fields, the software-engineer perspective,
      nothing generated, idle. */
  function Initial(): Ui {
    Ui("", "", InitialPerspective, "", false, "", false, "")
  }

  // ---------------------------------------------------------------- keyword field

  /** `.map((k) => k.trim())`. */
  function TrimEach(parts: seq<string>): (r: seq<string>)
    ensures |r| == |parts|
  {
    if |parts| == 0 then []
    else [Trim(parts[0])] + TrimEach(parts[1..])
  }

  /** `keywords.split(",").map((k) => k.trim())`: one trimmed item per
      comma-separated piece, so one more than the number of commas. */
  function ParseKeywords(field: string): (r: seq<string>)
    ensures |r| == Count(field, ',') + 1
    ensures forall i :: 0 <= i < |r| ==> IsTrimmed(r[i]) && ',' !in r[i]
    ensures |r| == |Split(field, KeywordSeparator)|
    ensures forall i :: 0 <= i < |r| ==> r[i] == Trim(Split(field, KeywordSeparator)[i])
  {
    var parts := Split(field, KeywordSeparator);
    SplitCharCount(field, ',');
    SplitCharPieces(field, ',');
    forall i | 0 <= i < |parts| ensures ',' !in Trim(parts[i]) {
      TrimKeepsOut(parts[i], ',');
    }
    TrimEachAt(parts);
    TrimEach(parts)
  }

  lemma {:induction false} TrimEachAt(parts: seq<string>)
    ensures forall i :: 0 <= i < |parts| ==> TrimEach(parts)[i] == Trim(parts[i])
    decreases |parts|
  {
    if |parts| > 0 {
      TrimEachAt(parts[1..]);
      var r := TrimEach(parts);
      forall i | 0 < i < |parts| ensures r[i] == Trim(parts[i]) {
        assert r[i] == TrimEach(parts[1..])[i - 1];
        assert parts[i] == parts[1..][i - 1];
      }
    }
  }

  /** An empty field still yields one, empty, keyword. */
  lemma ParseEmptyField()
    ensures ParseKeywords("") == [""]
  {
    assert Trim("") == "";
  }

  lemma TrimEachCons(x: string, xs: seq<string>)
    ensures TrimEach([x] + xs) == [Trim(x)] + TrimEach(xs)
  {
    assert ([x] + xs)[1..] == xs;
  }

  /** Leading white space in front of the first piece does not reach the
      parsed keywords. */
  lemma TrimEachLeadingSpace(t: string)
    ensures TrimEach(Split([' '] + t, KeywordSeparator)) == TrimEach(Split(t, KeywordSeparator))
  {
    var rest := Split(t, KeywordSeparator);
    var head, tail := rest[0], rest[1..];
    assert rest == [head] + tail;
    SplitConsChar(' ', t, KeywordSeparator);
    assert Split([' '] + t, KeywordSeparator) == [[' '] + head] + tail;
    TrimEachCons([' '] + head, tail);
    TrimLeadingSpace(head);
    TrimEachCons(head, tail);
  }

  /** Parsing undoes joining with ", ": keywords that are trimmed and free of
      commas come back exactly, in order. */
  lemma ParseJoinedKeywords(ks: seq<string>)
    requires |ks| > 0
    requires forall i :: 0 <= i < |ks| ==> IsTrimmed(ks[i]) && ',' !in ks[i]
    ensures ParseKeywords(Join(ks, TopicSeparator)) == ks
  {
    TrimSplitJoined(ks);
  }

  lemma {:induction false} TrimSplitJoined(ks: seq<string>)
    requires |ks| > 0
    requires forall i :: 0 <= i < |ks| ==> IsTrimmed(ks[i]) && ',' !in ks[i]
    ensures TrimEach(Split(Join(ks, TopicSeparator), KeywordSeparator)) == ks
    decreases |ks|
  {
    if |ks| == 1 {
      SingleKeywordParses(ks);
    } else {
      var k, more := ks[0], ks[1..];
      assert ks == [k] + more;
      JoinedStep(ks, k, Join(more, TopicSeparator));
      assert forall i :: 0 <= i < |more| ==> IsTrimmed(more[i]) && ',' !in more[i] by {
        forall i | 0 <= i < |more| ensures IsTrimmed(more[i]) && ',' !in more[i] {
          assert more[i] == ks[i + 1];
        }
      }
      TrimSplitJoined(more);
    }
  }

  /** A single trimmed, comma-free keyword parses to itself. */
  lemma SingleKeywordParses(ks: seq<string>)
    requires |ks| == 1 && IsTrimmed(ks[0]) && ',' !in ks[0]
    ensures TrimEach(Split(Join(ks, TopicSeparator), KeywordSeparator)) == ks
  {
    var k := ks[0];
    assert ks == [k];
    SingleKeywordParsesAt(k, Join(ks, TopicSeparator));
  }

  lemma SingleKeywordParsesAt(k: string, text: string)
    requires IsTrimmed(k) && ',' !in k && text == k
    ensures TrimEach(Split(text, KeywordSeparator)) == [k]
  {
    SplitNoSeparator(k, KeywordSeparator);
    TrimTrimmed(k);
    TrimEachCons(k, []);
    assert [k] + [] == [k];
  }

  /** One step of the round trip: the first keyword comes off the joined
      text whole, and the rest parses as if the ", " were not there. */
  lemma JoinedStep(ks: seq<string>, k: string, j: string)
    requires |ks| > 1 && k == ks[0] && j == Join(ks[1..], TopicSeparator)
    requires IsTrimmed(k) && ',' !in k
    ensures TrimEach(Split(Join(ks, TopicSeparator), KeywordSeparator)) == [k] + TrimEach(Split(j, KeywordSeparator))
  {
    var text := Join(ks, TopicSeparator);
    var spaced := [' '] + j;
    var tailParts := Split(spaced, KeywordSeparator);
    assert text == k + KeywordSeparator + spaced by {
      JoinCommaSpace(ks, k, j);
    }
    assert Split(text, KeywordSeparator) == [k] + tailParts by {
      SplitAtSeparator(k, KeywordSeparator, spaced);
    }
    assert TrimEach([k] + tailParts) == [k] + TrimEach(tailParts) by {
      TrimTrimmed(k);
      TrimEachCons(k, tailParts);
    }
    assert TrimEach(tailParts) == TrimEach(Split(j, KeywordSeparator)) by {
      TrimEachLeadingSpace(j);
    }
  }

  lemma JoinCommaSpace(ks: seq<string>, k: string, j: string)
    requires |ks| > 1 && k == ks[0] && j == Join(ks[1..], TopicSeparator)
    ensures Join(ks, TopicSeparator) == k + KeywordSeparator + ([' '] + j)
  {
    assert TopicSeparator == KeywordSeparator + [' '];
  }

  // ---------------------------------------------------------------- button

  /** `disabled={!isGenerating && (!title && !keywords)}`. */
  predicate ButtonDisabled(ui: Ui) {
    !ui.generating && ui.title == "" && ui.keywords == ""
  }

  datatype ButtonAction = StopGeneration | StartGeneration

  /** `onClick={isGenerating ? handleStopGeneration : handleGenerate}`. */
  function ButtonPress(ui: Ui): ButtonAction {
    if ui.generating then StopGeneration else StartGeneration
  }

  /** While generating the button is enabled and stops; when idle it starts
      a generation and is enabled exactly when a title or keywords were typed. */
  lemma ButtonRule(ui: Ui)
    ensures ui.generating ==> !ButtonDisabled(ui) && ButtonPress(ui) == StopGeneration
    ensures !ui.generating ==> ButtonPress(ui) == StartGeneration
    ensures !ui.generating ==> (ButtonDisabled(ui) <==> ui.title == "" && ui.keywords == "")
  {
  }

  /** The first render shows a disabled button. */
  lemma InitiallyDisabled()
    ensures ButtonDisabled(Initial())
  {
  }

  // ---------------------------------------------------------------- stop handler

  /** `handleStopGeneration`: with a controller held, abort it, drop it and
      leave the generating state; without one, nothing happens. */
  function Stop(ui: Ui): (r: Ui)
    ensures !r.controllerLive
    ensures ui.controllerLive ==> !r.generating
    ensures !ui.controllerLive ==> r == ui
    ensures r.generated == ui.generated && r.error == ui.error && r.buffer == ui.buffer
    ensures r.title == ui.title && r.keywords == ui.keywords && r.perspective == ui.perspective
  {
    if ui.controllerLive then ui.(controllerLive := false, generating := false) else ui
  }

  /** Stopping twice is stopping once. */
  lemma StopIdempotent(ui: Ui)
    ensures Stop(Stop(ui)) == Stop(ui)
  {
  }

  // ---------------------------------------------------------------- generate handler

  /** The `name` of the error a failed generation throws. */
  datatype FailureKind = AbortError | OtherError

  /** How the request ended from the page's point of view: the fetch
      rejected, the response was not ok, it had no body, or it streamed
      `chunks` (the decoded text of each read) and then either finished or had
      a read reject. An abort from the stop button surfaces as a rejection
      with an `AbortError`. */
  datatype Reply =
    | Rejected(kind: FailureKind)
    | NotOk
    | NoBody
    | Streamed(chunks: seq<string>, end: Option<FailureKind>)

  /** What the `catch` block receives: the two `throw`s for a response that
      is not ok or has no body are ordinary errors; a rejected fetch or read
      passes its own error on; only a stream that finished has none. */
  function Failure(reply: Reply): (r: Option<FailureKind>)
    ensures r.None? <==> reply.Streamed? && reply.end.None?
    ensures r == Some(AbortError) ==> reply.Rejected? || reply.Streamed?
  {
    match reply
    case Rejected(k) => Some(k)
    case NotOk => Some(OtherError)
    case NoBody => Some(OtherError)
    case Streamed(_, end) => end
  }

  /** The text chunks read before the request ended. */
  function Received(reply: Reply): seq<string> {
    if reply.Streamed? then reply.chunks else []
  }

  /** The catch block: an abort reads as stopped by the user, every other
      failure as a generic failure; without a failure the message stays
      cleared. */
  function ErrorMessage(failure: Option<FailureKind>): (m: string)
    ensures m == "" <==> failure.None?
    ensures m == StoppedMessage <==> failure == Some(AbortError)
  {
    match failure
    case None => ""
    case Some(AbortError) => StoppedMessage
    case Some(OtherError) => FailedMessage
  }

  /** The body the page posts: the title as typed, the parsed keywords and
      the selected perspective key. */
  function RequestFor(ui: Ui): BlogRequest {
    BlogRequest(Some(ui.title), Some(ParseKeywords(ui.keywords)), Some(ui.perspective))
  }

  /** The state `handleGenerate` settles in: the form is untouched, the
      buffer holds every chunk read, the display is that buffer formatted,
      the error follows the failure, and the page is idle with no
      controller. */
  function Settled(ui: Ui, reply: Reply): Ui {
    ui.(generated := FormatContent(Concat(Received(reply))),
        generating := false,
        error := ErrorMessage(Failure(reply)),
        controllerLive := false,
        buffer := Concat(Received(reply)))
  }

  lemma EmptyFormatsEmpty()
    ensures FormatContent("") == ""
  {
    FormatBlankInput("");
  }

  /** The read loop: append each chunk to the buffer and re-render the whole
      buffer after every read. `shown` lists what was rendered after each
      read. */
  method ReadAll(chunks: seq<string>, render: string -> string) returns (buffer: string, shown: seq<string>)
    ensures buffer == Concat(chunks)
    ensures |shown| == |chunks|
    ensures forall k :: 0 <= k < |shown| ==> shown[k] == render(Concat(chunks[..k + 1]))
    ensures |shown| > 0 ==> shown[|shown| - 1] == render(buffer)
  {
    buffer := "";
    shown := [];
    var i := 0;
    while i < |chunks|
      invariant 0 <= i <= |chunks|
      invariant buffer == Concat(chunks[..i])
      invariant |shown| == i
      invariant forall k :: 0 <= k < i ==> shown[k] == render(Concat(chunks[..k + 1]))
    {
      assert Concat(chunks[..i + 1]) == buffer + chunks[i] by {
        ConcatAppend(chunks[..i], [chunks[i]]);
        assert chunks[..i + 1] == chunks[..i] + [chunks[i]];
        assert Concat([chunks[i]]) == chunks[i] + Concat([]);
      }
      buffer := buffer + chunks[i];
      shown := shown + [render(buffer)];
      i := i + 1;
    }
    assert chunks[..i] == chunks;
  }

  /** `handleGenerate`: reset, post the request, then append each chunk read
      to the buffer and display the whole buffer formatted; on a failure set
      the message; finally leave the generating state and drop the
      controller. `shown` lists the display after each read. */
  method Generate(ui: Ui, reply: Reply) returns (request: BlogRequest, shown: seq<string>, final: Ui)
    ensures request == RequestFor(ui)
    ensures |shown| == |Received(reply)|
    ensures forall k :: 0 <= k < |shown| ==> shown[k] == FormatContent(Concat(Received(reply)[..k + 1]))
    ensures final == Settled(ui, reply)
  {
    request := RequestFor(ui);
    var chunks := Received(reply);
    var buffer;
    buffer, shown := ReadAll(chunks, FormatContent);
    var generated := "";
    if |shown| > 0 {
      generated := shown[|shown| - 1];
    } else {
      assert buffer == "";
      EmptyFormatsEmpty();
    }
    // the catch block sets the message; without a failure it stays cleared
    var error := ErrorMessage(Failure(reply));
    final := ui.(generated := generated, generating := false, error := error,
                 controllerLive := false, buffer := buffer);
  }

  // ---------------------------------------------------------------- consequences

  /** Every way a generation ends leaves the page idle with no controller,
      and with the message the failure calls for. */
  lemma SettledIsIdle(ui: Ui, reply: Reply)
    ensures !Settled(ui, reply).generating && !Settled(ui, reply).controllerLive
    ensures Failure(reply) == Some(AbortError) ==> Settled(ui, reply).error == StoppedMessage
    ensures Failure(reply) == Some(OtherError) ==> Settled(ui, reply).error == FailedMessage
    ensures Failure(reply).None? ==> Settled(ui, reply).error == ""
    ensures !Settled(ui, reply).generating ==> ButtonPress(Settled(ui, reply)) == StartGeneration
  {
  }

  /** The final display depends only on the text received, not on how it
      was cut into chunks. */
  lemma DisplayIgnoresChunking(ui: Ui, a: seq<string>, b: seq<string>, end: Option<FailureKind>)
    requires Concat(a) == Concat(b)
    ensures Settled(ui, Streamed(a, end)).generated == Settled(ui, Streamed(b, end)).generated
  {
  }

  /** Text read before a failure stays on display. */
  lemma FailureKeepsText(ui: Ui, chunks: seq<string>, kind: FailureKind)
    ensures Settled(ui, Streamed(chunks, Some(kind))).generated == FormatContent(Concat(chunks))
    ensures Settled(ui, Streamed(chunks, Some(kind))).generated == Settled(ui, Streamed(chunks, None)).generated
  {
  }

  /** A request that fails before any text arrives leaves the display empty. */
  lemma EarlyFailureShowsNothing(ui: Ui, reply: Reply)
    requires !reply.Streamed?
    ensures Settled(ui, reply).generated == ""
  {
    FormatBlankInput("");
  }

  /** The keyword list the page sends is never empty, so every prompt built
      from a page request has the topics clause, even with an empty keyword
      field. */
  lemma PageRequestHasTopics(ui: Ui)
    ensures HasTopics(RequestFor(ui).keywords)
    ensures StartsWith(AfterTitle(RequestFor(ui)), TopicsIntro)
  {
    TopicsClausePlacement(RequestFor(ui));
  }

  /** The page never sends a title clause for an empty title field. */
  lemma EmptyTitleFieldHasNoClause(ui: Ui)
    requires ui.title == ""
    ensures !StartsWith(AfterBase(RequestFor(ui)), AboutIntro)
  {
    TitleClausePlacement(RequestFor(ui));
  }

  /** The initial perspective is a key of the table, so an untouched
      selector yields the software-engineer sentence. */
  lemma InitialPerspectiveSentence(ui: Ui)
    requires ui.perspective == Initial().perspective
    ensures InstructionText(RequestFor(ui).perspective) == Instruction(SoftwareEngineer)
  {
    InstructionSelection(RequestFor(ui).perspective);
  }
}

=== FILE: decoder.dfy ===
/** The per-chunk decoder of the upstream event stream
    (src/app/api/generate/route.ts, lines 85-111): every chunk read from the
    upstream body is split on line feeds on its own, and each `data: ` line
    whose payload has the shape of a JSON array or object contributes the
    text fragment the payload carries, if any.

    Parsing the payload and reading `choices[0].delta.content` out of it is
    foreign to the model: it is a parameter, an `Extractor`. */
module Decoder {
  import opened Wrappers
  import opened Strings

  const DataPrefix := "data: "
  const DoneMarker := "[DONE]"
  const LineFeed := "\n"

  /** `JSON.parse(data)` followed by `parsed.choices?.[0]?.delta?.content || ''`:
      `None` when the parse throws, `Some("")` when the payload carries no
      text, `Some(text)` otherwise. */
  type Extractor = string -> Option<string>

  /** The characters `.` in a JavaScript regular expression does not match. */
  predicate IsLineTerminator(c: char) {
    c == '\n' || c == '\r' || c == '\U{2028}' || c == '\U{2029}'
  }

  predicate OpensJson(c: char) {
    c == '[' || c == '{'
  }

  predicate ClosesJson(c: char) {
    c == ']' || c == '}'
  }

  /** The shape test `/^[\[{].*[\]}]$/`: an opening bracket or brace, then
      anything but line terminators, then a closing bracket or brace. */
  predicate LooksLikeJson(data: string) {
    && |data| >= 2
    && OpensJson(data[0])
    && ClosesJson(data[|data| - 1])
    && forall i :: 0 < i < |data| - 1 ==> !IsLineTerminator(data[i])
  }

  /** `line.slice(6).trim()` for a line that starts with `data: `. */
  function Payload(line: string): (r: string)
    requires StartsWith(line, DataPrefix)
    ensures IsTrimmed(r)
  {
    Trim(line[|DataPrefix|..])
  }

  /** The payload is the text after `data: ` (the first `n` characters)
      with a blank prefix (of `k` characters) and a blank suffix removed. */
  lemma PayloadCut(line: string, n: int, r: string, k: int)
    requires StartsWith(line, DataPrefix) && n == |DataPrefix| && r == Payload(line)
    requires k == |line| - n - |TrimStart(line[n..])|
    ensures 0 <= k && n + k + |r| <= |line| && r == line[n + k..n + k + |r|]
    ensures IsBlank(line[n..n + k]) && IsBlank(line[n + k + |r|..])
  {
    var s := line[n..];
    assert r == Trim(s);
    TrimCut(s, r, k);
    CutOfSuffix(line, n, s, r, k);
  }

  /** What one line contributes: at most one non-empty fragment. */
  function DecodeLine(line: string, extract: Extractor): (r: Option<string>)
    ensures r.Some? ==> r.value != ""
    ensures !StartsWith(line, DataPrefix) ==> r == None
  {
    if !StartsWith(line, DataPrefix) then None
    else
      var data := Payload(line);
      if data == "" || data == DoneMarker then None
      else if !LooksLikeJson(data) then None
      else
        match extract(data)
        case None => None
        case Some(content) => if content == "" then None else Some(content)
  }

  /** What one line contributes, as a sequence of at most one fragment. */
  function LineFragments(line: string, extract: Extractor): (r: seq<string>)
    ensures |r| <= 1
    ensures forall i :: 0 <= i < |r| ==> r[i] != ""
  {
    match DecodeLine(line, extract)
    case None => []
    case Some(f) => [f]
  }

  /** The fragments of a sequence of lines, in line order. */
  function DecodeLines(lines: seq<string>, extract: Extractor): (r: seq<string>)
    ensures |r| <= |lines|
  {
    if |lines| == 0 then []
    else LineFragments(lines[0], extract) + DecodeLines(lines[1..], extract)
  }

  /** Every fragment is non-empty. */
  lemma {:induction false} DecodeLinesNonEmpty(lines: seq<string>, extract: Extractor)
    ensures forall i :: 0 <= i < |DecodeLines(lines, extract)| ==> DecodeLines(lines, extract)[i] != ""
    decreases |lines|
  {
    if |lines| > 0 {
      DecodeLinesNonEmpty(lines[1..], extract);
      var here, rest := LineFragments(lines[0], extract), DecodeLines(lines[1..], extract);
      forall i | 0 <= i < |here + rest| ensures (here + rest)[i] != "" {
        if i >= |here| { assert (here + rest)[i] == rest[i - |here|]; }
      }
    }
  }

  /** `chunk.split('\n')` decoded line by line. */
  function DecodeChunk(chunk: string, extract: Extractor): seq<string> {
    DecodeLines(Split(chunk, LineFeed), extract)
  }

  /** The whole upstream body: each chunk decoded on its own, the fragments
      run together in chunk order. No partial line is carried from one chunk
      to the next. */
  function DecodeStream(chunks: seq<string>, extract: Extractor): seq<string> {
    if |chunks| == 0 then []
    else DecodeChunk(chunks[0], extract) + DecodeStream(chunks[1..], extract)
  }

  // ---------------------------------------------------------------- single lines

  /** The skip rules: a line yields nothing when it is not a `data: ` line,
      when its payload is empty or the end-of-stream marker, when the payload
      fails the shape test or the parse; what it does yield is what the
      extractor read from the payload. */
  lemma DecodeLineSkips(line: string, extract: Extractor)
    requires StartsWith(line, DataPrefix)
    ensures Payload(line) == "" || Payload(line) == DoneMarker ==> DecodeLine(line, extract) == None
    ensures !LooksLikeJson(Payload(line)) ==> DecodeLine(line, extract) == None
    ensures extract(Payload(line)).None? ==> DecodeLine(line, extract) == None
    ensures DecodeLine(line, extract).Some? ==> extract(Payload(line)) == DecodeLine(line, extract)
  {
  }

  /** Exactly what a `data: ` line yields, padded or not: the text the
      extractor reads from its trimmed payload when that payload is neither
      empty nor the end-of-stream marker, has the shape of JSON and carries
      non-empty text; nothing otherwise. */
  lemma DecodeLineIff(line: string, content: string, extract: Extractor)
    requires StartsWith(line, DataPrefix)
    ensures DecodeLine(line, extract) == Some(content) <==>
      && Payload(line) != "" && Payload(line) != DoneMarker && LooksLikeJson(Payload(line))
      && extract(Payload(line)) == Some(content) && content != ""
  {
  }

  /** A well-formed `data: ` line carrying text yields exactly that text. */
  lemma DecodeLineEmits(data: string, content: string, extract: Extractor)
    requires IsTrimmed(data) && LooksLikeJson(data) && data != DoneMarker
    requires extract(data) == Some(content) && content != ""
    ensures DecodeLine(DataPrefix + data, extract) == Some(content)
  {
    PrefixOfConcat(DataPrefix, data);
    DropPrefix(DataPrefix, data);
    TrimTrimmed(data);
  }

  /** Trailing white space, and so a carriage return left over from `\r\n`
      framing, does not change the payload. */
  lemma PayloadIgnoresPadding(data: string, pad: string)
    requires IsTrimmed(data) && IsBlank(pad) && data != ""
    ensures StartsWith(DataPrefix + data + pad, DataPrefix)
    ensures Payload(DataPrefix + data + pad) == data
  {
    var line := DataPrefix + data + pad;
    assert line == DataPrefix + (data + pad);
    PrefixOfConcat(DataPrefix, data + pad);
    DropPrefix(DataPrefix, data + pad);
    TrimTrailingBlank(data, pad);
  }

  /** A text frame whose line still ends in the `\r` of `\r\n` framing yields
      its text all the same. */
  lemma CrlfLineEmits(data: string, content: string, extract: Extractor)
    requires IsTrimmed(data) && LooksLikeJson(data) && data != DoneMarker
    requires extract(data) == Some(content) && content != ""
    ensures DecodeLine(DataPrefix + data + "\r", extract) == Some(content)
  {
    assert IsBlank("\r") by { assert IsWhitespace("\r"[0]); }
    PayloadIgnoresPadding(data, "\r");
    DecodeLineIff(DataPrefix + data + "\r", content, extract);
  }

  /** The end-of-stream marker passes the shape test, so without its own
      check it would be handed to the parser. */
  lemma DoneMarkerLooksLikeJson()
    ensures LooksLikeJson(DoneMarker)
  {
    assert DoneMarker[0] == '[' && DoneMarker[5] == ']';
  }

  /** A payload that is not bracketed the way JSON arrays and objects are is
      skipped whatever the parser would make of it. */
  lemma NonJsonPayloadSkipped(data: string, extract: Extractor)
    requires data != "" && !IsWhitespace(data[0]) && !OpensJson(data[0])
    ensures DecodeLine(DataPrefix + data, extract) == None
  {
    PrefixOfConcat(DataPrefix, data);
    DropPrefix(DataPrefix, data);
    TrimKeepsFirst(data);
  }

  // ---------------------------------------------------------------- line sequences

  /** Fragments keep line order: decoding distributes over concatenation of
      line sequences. */
  lemma {:induction false} DecodeLinesAppend(a: seq<string>, b: seq<string>, extract: Extractor)
    ensures DecodeLines(a + b, extract) == DecodeLines(a, extract) + DecodeLines(b, extract)
    decreases |a|
  {
    if |a| == 0 {
      assert a + b == b;
    } else {
      assert (a + b)[1..] == a[1..] + b;
      DecodeLinesAppend(a[1..], b, extract);
    }
  }

  /** A line that yields nothing, whatever its defect, does not stop or alter
      the decoding of the lines around it. */
  lemma BadLineSkipped(a: seq<string>, line: string, b: seq<string>, extract: Extractor)
    requires DecodeLine(line, extract) == None
    ensures DecodeLines(a + [line] + b, extract) == DecodeLines(a, extract) + DecodeLines(b, extract)
  {
    var tail := [line] + b;
    assert tail[0] == line && tail[1..] == b;
    assert DecodeLines(tail, extract) == DecodeLines(b, extract);
    assert a + [line] + b == a + tail;
    DecodeLinesAppend(a, tail, extract);
  }

  /** The end-of-stream line yields nothing. */
  lemma DoneLineSilent(extract: Extractor)
    ensures DecodeLine(DataPrefix + DoneMarker, extract) == None
  {
    PrefixOfConcat(DataPrefix, DoneMarker);
    DropPrefix(DataPrefix, DoneMarker);
    assert DoneMarker[0] == '[' && DoneMarker[5] == ']';
    TrimTrimmed(DoneMarker);
  }

  /** The end-of-stream marker does not end decoding: lines after it are
      still decoded. */
  lemma DoneDoesNotStop(rest: seq<string>, extract: Extractor)
    ensures DecodeLines([DataPrefix + DoneMarker] + rest, extract) == DecodeLines(rest, extract)
  {
    var line := DataPrefix + DoneMarker;
    DoneLineSilent(extract);
    BadLineSkipped([], line, rest, extract);
    assert [] + [line] + rest == [line] + rest;
  }

  // ---------------------------------------------------------------- chunks and streams

  /** Decoding a chunk distributes over a line feed inside it. */
  lemma DecodeChunkAtNewline(a: string, b: string, extract: Extractor)
    ensures DecodeChunk(a + LineFeed + b, extract) == DecodeChunk(a, extract) + DecodeChunk(b, extract)
  {
    SplitCharConcat(a, b, '\n');
    DecodeLinesAppend(Split(a, LineFeed), Split(b, LineFeed), extract);
  }

  /** Each chunk yields at most one fragment per line it holds. */
  lemma DecodeChunkBound(chunk: string, extract: Extractor)
    ensures |DecodeChunk(chunk, extract)| <= Count(chunk, '\n') + 1
  {
    SplitCharCount(chunk, '\n');
  }

  /** A stream's fragments are its chunks' fragments in chunk order. */
  lemma {:induction false} DecodeStreamAppend(a: seq<string>, b: seq<string>, extract: Extractor)
    ensures DecodeStream(a + b, extract) == DecodeStream(a, extract) + DecodeStream(b, extract)
    decreases |a|
  {
    if |a| == 0 {
      assert a + b == b;
    } else {
      assert (a + b)[1..] == a[1..] + b;
      DecodeStreamAppend(a[1..], b, extract);
    }
  }

  /** Every fragment of a stream is non-empty. */
  lemma {:induction false} DecodeStreamNonEmpty(chunks: seq<string>, extract: Extractor)
    ensures forall i :: 0 <= i < |DecodeStream(chunks, extract)| ==> DecodeStream(chunks, extract)[i] != ""
    decreases |chunks|
  {
    if |chunks| > 0 {
      DecodeStreamNonEmpty(chunks[1..], extract);
      DecodeLinesNonEmpty(Split(chunks[0], LineFeed), extract);
      var c := DecodeChunk(chunks[0], extract);
      var rest := DecodeStream(chunks[1..], extract);
      forall i | 0 <= i < |c + rest| ensures (c + rest)[i] != "" {
        if i >= |c| { assert (c + rest)[i] == rest[i - |c|]; }
      }
    }
  }

  /** A frame cut by a chunk boundary is lost: the line `w` delivered as one
      chunk yields the fragment, delivered as two chunks cut anywhere inside
      its `data: ` prefix it yields nothing. */
  lemma SplitFrameLost(w: string, data: string, content: string, extract: Extractor, k: int)
    requires IsTrimmed(data) && LooksLikeJson(data) && data != DoneMarker
    requires extract(data) == Some(content) && content != ""
    requires w == DataPrefix + data && 0 < k < |DataPrefix|
    ensures DecodeStream([w], extract) == [content]
    ensures DecodeStream([w[..k], w[k..]], extract) == []
  {
    NoLineFeedInJson(data);
    FrameWhole(data, content, extract);
    PrefixCut(w, data, extract, k);
  }

  /** The same frame cut inside its payload, after `j` characters, is lost as
      well when the first part does not have the shape of JSON (it lacks the
      closing bracket) and the second does not itself open a `data: ` line. */
  lemma SplitPayloadLost(w: string, data: string, extract: Extractor, j: int)
    requires LooksLikeJson(data) && w == DataPrefix + data && 0 < j < |data|
    requires !LooksLikeJson(Trim(data[..j])) && !StartsWith(data[j..], DataPrefix)
    ensures DecodeStream([w[..|DataPrefix| + j], w[|DataPrefix| + j..]], extract) == []
  {
    NoLineFeedInJson(data);
    var head, tail := w[..|DataPrefix| + j], w[|DataPrefix| + j..];
    CutAfterPrefix(w, DataPrefix, data, j, |DataPrefix| + j);
    ShapelessHeadSilent(head, data[..j], extract);
    assert '\n' !in tail;
    SilentLineChunk(tail, extract);
    TwoChunkStream(head, tail, extract);
  }

  /** `data: ` followed by a text without line feeds is one `data: ` line
      whose payload is that text trimmed. */
  lemma PrefixedLine(line: string, part: string)
    requires line == DataPrefix + part && '\n' !in part
    ensures StartsWith(line, DataPrefix) && Payload(line) == Trim(part) && '\n' !in line
  {
    assert StartsWith(line, DataPrefix) by { PrefixOfConcat(DataPrefix, part); }
    assert line[|DataPrefix|..] == part by { DropPrefix(DataPrefix, part); }
    assert '\n' !in line by {
      assert '\n' !in DataPrefix;
      assert forall c | c in line :: c in DataPrefix || c in part;
    }
  }

  /** A `data: ` line whose payload does not have the shape of JSON decodes to
      nothing. */
  lemma ShapelessHeadSilent(head: string, part: string, extract: Extractor)
    requires head == DataPrefix + part && '\n' !in part && !LooksLikeJson(Trim(part))
    ensures DecodeChunk(head, extract) == []
  {
    PrefixedLine(head, part);
    DecodeLineSkips(head, extract);
    SilentLineChunk(head, extract);
  }

  lemma NoLineFeedInJson(data: string)
    requires LooksLikeJson(data)
    ensures '\n' !in data
  {
    forall i | 0 <= i < |data| ensures data[i] != '\n' {
      if 0 < i < |data| - 1 { assert !IsLineTerminator(data[i]); }
    }
  }

  lemma FrameWhole(data: string, content: string, extract: Extractor)
    requires IsTrimmed(data) && LooksLikeJson(data) && data != DoneMarker && '\n' !in data
    requires extract(data) == Some(content) && content != ""
    ensures DecodeStream([DataPrefix + data], extract) == [content]
  {
    var whole := DataPrefix + data;
    assert '\n' !in whole;
    DecodeLineEmits(data, content, extract);
    SingleLineChunk(whole, content, extract);
    SingleChunkStream(whole, extract);
  }

  /** The two parts of a cut inside the prefix are both silent: the first is
      too short to be a `data: ` line and the second does not begin with `d`. */
  lemma PrefixCut(w: string, data: string, extract: Extractor, k: int)
    requires '\n' !in data && w == DataPrefix + data && 0 < k < |DataPrefix|
    ensures DecodeStream([w[..k], w[k..]], extract) == []
  {
    var head, tail := w[..k], w[k..];
    assert head == DataPrefix[..k] && tail == DataPrefix[k..] + data;
    assert '\n' !in head && '\n' !in tail;
    assert !StartsWith(head, DataPrefix);
    SilentLineChunk(head, extract);
    assert !StartsWith(tail, DataPrefix) by { assert tail[0] == DataPrefix[k] != 'd'; }
    SilentLineChunk(tail, extract);
    TwoChunkStream(head, tail, extract);
  }

  /** A chunk holding one text frame, a blank line and the end-of-stream
      frame yields just the frame's text. */
  lemma FrameThenDone(chunk: string, data: string, content: string, extract: Extractor)
    requires IsTrimmed(data) && LooksLikeJson(data) && data != DoneMarker
    requires extract(data) == Some(content) && content != ""
    requires chunk == DataPrefix + data + LineFeed + LineFeed + DataPrefix + DoneMarker + LineFeed
    ensures DecodeChunk(chunk, extract) == [content]
  {
    var a, t := DataPrefix + data, LineFeed + DataPrefix + DoneMarker + LineFeed;
    FrameThenDoneShape(chunk, a, t, data);
    NoLineFeedInJson(data);
    assert '\n' !in a;
    DecodeLineEmits(data, content, extract);
    SingleLineChunk(a, content, extract);
    DoneTail(t, extract);
    DecodeChunkAtNewline(a, t, extract);
  }

  /** Regrouping step for `FrameThenDone`: the chunk is the text frame, a
      line feed, and the rest. Kept apart so the verifier sees it without the
      decoder's definitions in scope. */
  lemma FrameThenDoneShape(chunk: string, a: string, t: string, data: string)
    requires a == DataPrefix + data && t == LineFeed + DataPrefix + DoneMarker + LineFeed
    requires chunk == DataPrefix + data + LineFeed + LineFeed + DataPrefix + DoneMarker + LineFeed
    ensures chunk == a + LineFeed + t
  {
  }

  /** The blank line and end-of-stream frame after the text frame. */
  lemma DoneTail(t: string, extract: Extractor)
    requires t == LineFeed + DataPrefix + DoneMarker + LineFeed
    ensures DecodeChunk(t, extract) == []
  {
    var c := DataPrefix + DoneMarker;
    GroupMiddle(LineFeed, DataPrefix, DoneMarker, LineFeed);
    DoneChunkSilent(c, extract);
    ChunkTrailingNewline(c, extract);
    ChunkLeadingNewline(c + LineFeed, extract);
  }

  lemma DoneChunkSilent(c: string, extract: Extractor)
    requires c == DataPrefix + DoneMarker
    ensures DecodeChunk(c, extract) == []
  {
    DoneLineFacts(c, extract);
    SilentLineChunk(c, extract);
  }

  lemma DoneLineFacts(c: string, extract: Extractor)
    requires c == DataPrefix + DoneMarker
    ensures '\n' !in c && DecodeLine(c, extract) == None
  {
    DoneLineSilent(extract);
    NoLineFeedInFrames();
  }

  lemma NoLineFeedInFrames()
    ensures '\n' !in DataPrefix + DoneMarker
  {
    assert '\n' !in DataPrefix;
    assert '\n' !in DoneMarker;
  }

  lemma ChunkLeadingNewline(b: string, extract: Extractor)
    ensures DecodeChunk(LineFeed + b, extract) == DecodeChunk(b, extract)
  {
    DecodeChunkAtNewline("", b, extract);
    assert "" + LineFeed + b == LineFeed + b;
    SilentLineChunk("", extract);
  }

  lemma ChunkTrailingNewline(a: string, extract: Extractor)
    ensures DecodeChunk(a + LineFeed, extract) == DecodeChunk(a, extract)
  {
    DecodeChunkAtNewline(a, "", extract);
    assert a + LineFeed + "" == a + LineFeed;
    SilentLineChunk("", extract);
  }

  /** A payload that is not bracketed JSON, such as `data: not-json`, yields
      nothing. */
  lemma NotJsonExample(line: string, extract: Extractor)
    requires line == DataPrefix + "not-json"
    ensures DecodeLine(line, extract) == None
  {
    NonJsonPayloadSkipped("not-json", extract);
  }

  // ---------------------------------------------------------------- helpers for chunk-level facts

  lemma SilentLineChunk(line: string, extract: Extractor)
    requires '\n' !in line && DecodeLine(line, extract) == None
    ensures DecodeChunk(line, extract) == []
  {
    SplitNoSeparator(line, LineFeed);
    assert [line][1..] == [];
  }


  lemma SingleLineChunk(line: string, content: string, extract: Extractor)
    requires '\n' !in line && DecodeLine(line, extract) == Some(content)
    ensures DecodeChunk(line, extract) == [content]
  {
    SplitNoSeparator(line, LineFeed);
    assert [line][1..] == [];
  }


  lemma SingleChunkStream(chunk: string, extract: Extractor)
    ensures DecodeStream([chunk], extract) == DecodeChunk(chunk, extract)
  {
    assert [chunk][1..] == [];
  }

  lemma TwoChunkStream(a: string, b: string, extract: Extractor)
    ensures DecodeStream([a, b], extract) == DecodeChunk(a, extract) + DecodeChunk(b, extract)
  {
    assert [a, b][1..] == [b];
    SingleChunkStream(b, extract);
  }
}

=== FILE: format.dfy ===
/** The client's cosmetic reformatting of the accumulated post text
    (`formatContent` in src/app/page.tsx): strip horizontal rules, header
    markers and bold markers, then lay the remaining non-blank lines out as
    trimmed paragraphs separated by one blank line. */
module Format {
  import opened Strings

  const Rule := "---"
  const Header := "###"
  const Bold := "**"
  const ParagraphBreak := "\n\n"

  /** The three global replaces, applied in the source's order. */
  function StripMarkers(content: string): (r: string)
    ensures NoPair(r, '*')
    ensures forall c :: c in r ==> c in content
    ensures !Occurs(Rule, content) && !Occurs(Header, content) && !Occurs(Bold, content) ==> r == content
  {
    RemoveAllNoPair(RemoveAll(RemoveAll(content, Rule), Header), '*');
    CleanUntouched(content);
    RemoveAll(RemoveAll(RemoveAll(content, Rule), Header), Bold)
  }

  lemma CleanUntouched(content: string)
    ensures !Occurs(Rule, content) && !Occurs(Header, content) && !Occurs(Bold, content) ==>
      RemoveAll(RemoveAll(RemoveAll(content, Rule), Header), Bold) == content
  {
    if !Occurs(Rule, content) && !Occurs(Header, content) && !Occurs(Bold, content) {
      RemoveAllAbsent(content, Rule);
      RemoveAllAbsent(content, Header);
      RemoveAllAbsent(content, Bold);
    }
  }

  /** The `filter` then `map` over lines: blank lines are dropped, the others
      trimmed, the order kept. */
  function KeepParagraphs(lines: seq<string>): (r: seq<string>)
    ensures |r| <= |lines|
  {
    if |lines| == 0 then []
    else if Trim(lines[0]) == "" then KeepParagraphs(lines[1..])
    else [Trim(lines[0])] + KeepParagraphs(lines[1..])
  }

  /** A property every non-empty trimmed line has, every paragraph has. */
  lemma {:induction false} KeepParagraphsAll(lines: seq<string>, p: string -> bool)
    requires forall i :: 0 <= i < |lines| && Trim(lines[i]) != "" ==> p(Trim(lines[i]))
    ensures forall i :: 0 <= i < |KeepParagraphs(lines)| ==> p(KeepParagraphs(lines)[i])
    decreases |lines|
  {
    if |lines| > 0 {
      var tail := lines[1..];
      forall i | 0 <= i < |tail| && Trim(tail[i]) != "" ensures p(Trim(tail[i])) {
        assert tail[i] == lines[i + 1];
      }
      KeepParagraphsAll(tail, p);
      var t := Trim(lines[0]);
      if t != "" {
        assert KeepParagraphs(lines) == [t] + KeepParagraphs(tail);
        AllCons(t, KeepParagraphs(tail), p);
      } else {
        assert KeepParagraphs(lines) == KeepParagraphs(tail);
      }
    }
  }

  lemma AllCons(t: string, rest: seq<string>, p: string -> bool)
    requires p(t) && forall i :: 0 <= i < |rest| ==> p(rest[i])
    ensures forall i :: 0 <= i < |[t] + rest| ==> p(([t] + rest)[i])
  {
    var r := [t] + rest;
    forall i | 0 <= i < |r| ensures p(r[i]) {
      if i > 0 { assert r[i] == rest[i - 1]; }
    }
  }

  /** What survives the filter is non-empty and trimmed. */
  lemma KeepParagraphsTrimmed(lines: seq<string>)
    ensures forall i :: 0 <= i < |KeepParagraphs(lines)| ==>
      KeepParagraphs(lines)[i] != "" && IsTrimmed(KeepParagraphs(lines)[i])
  {
    KeepParagraphsAll(lines, t => t != "" && IsTrimmed(t));
  }

  /** Lines free of line feeds give paragraphs free of line feeds. */
  lemma KeepParagraphsSingleLine(lines: seq<string>)
    requires forall i :: 0 <= i < |lines| ==> '\n' !in lines[i]
    ensures forall i :: 0 <= i < |KeepParagraphs(lines)| ==> '\n' !in KeepParagraphs(lines)[i]
  {
    forall i | 0 <= i < |lines| ensures '\n' !in Trim(lines[i]) {
      TrimKeepsOut(lines[i], '\n');
    }
    KeepParagraphsAll(lines, t => '\n' !in t);
  }

  /** Lines free of `**` give paragraphs free of `**`. */
  lemma KeepParagraphsNoBold(lines: seq<string>)
    requires forall i :: 0 <= i < |lines| ==> NoPair(lines[i], '*')
    ensures forall i :: 0 <= i < |KeepParagraphs(lines)| ==> NoPair(KeepParagraphs(lines)[i], '*')
  {
    forall i | 0 <= i < |lines| ensures NoPair(Trim(lines[i]), '*') {
      TrimNoPair(lines[i], '*');
    }
    KeepParagraphsAll(lines, t => NoPair(t, '*'));
  }

  /** Nothing survives the filter exactly when every line is blank. */
  lemma {:induction false} KeepParagraphsEmptyIff(lines: seq<string>)
    ensures KeepParagraphs(lines) == [] <==> forall i :: 0 <= i < |lines| ==> IsBlank(lines[i])
    decreases |lines|
  {
    if |lines| > 0 {
      KeepParagraphsEmptyIff(lines[1..]);
      assert forall i :: 0 < i < |lines| ==> lines[i] == lines[1..][i - 1];
    }
  }

  /** The paragraphs `formatContent` lays out for `content`. */
  function Paragraphs(content: string): seq<string> {
    KeepParagraphs(Split(StripMarkers(content), "\n"))
  }

  /** `formatContent`. */
  function FormatContent(content: string): string {
    Join(Paragraphs(content), ParagraphBreak)
  }

  /** Each paragraph is non-empty, holds no line feed, has no white space
      at either end and contains no `**`. */
  lemma ParagraphShape(content: string)
    ensures forall i :: 0 <= i < |Paragraphs(content)| ==>
      var p := Paragraphs(content)[i];
      p != "" && '\n' !in p && IsTrimmed(p) && NoPair(p, '*')
  {
    var s := StripMarkers(content);
    SplitCharPieces(s, '\n');
    SplitJoin(s, "\n");
    JoinNoPairParts(Split(s, "\n"), "\n", '*');
    KeepParagraphsTrimmed(Split(s, "\n"));
    KeepParagraphsSingleLine(Split(s, "\n"));
    KeepParagraphsNoBold(Split(s, "\n"));
  }

  /** The output contains no `**`. */
  lemma FormatHasNoBold(content: string)
    ensures !Occurs(Bold, FormatContent(content))
  {
    ParagraphShape(content);
    JoinNoPair(Paragraphs(content), ParagraphBreak, '*');
    NoPairNotOccurs(FormatContent(content), '*');
  }

  /** Splitting the output at blank-line separators gives back exactly the
      paragraphs: the non-blank, trimmed lines of the marker-stripped text,
      in their original order. */
  lemma FormatSplitsIntoParagraphs(content: string)
    requires FormatContent(content) != ""
    ensures Split(FormatContent(content), ParagraphBreak) == Paragraphs(content)
  {
    ParagraphShape(content);
    assert |Paragraphs(content)| > 0;
    SplitOfJoin(Paragraphs(content), ParagraphBreak);
  }

  /** No paragraph survives exactly when the marker-stripped text is blank. */
  lemma ParagraphsEmptyIff(content: string)
    ensures Paragraphs(content) == [] <==> IsBlank(StripMarkers(content))
  {
    var s := StripMarkers(content);
    var lines := Split(s, "\n");
    KeepParagraphsEmptyIff(lines);
    assert IsBlank("\n");
    JoinBlank(lines, "\n");
    SplitJoin(s, "\n");
  }

  /** The output is empty exactly when the marker-stripped text is blank. */
  lemma FormatEmptyIff(content: string)
    ensures FormatContent(content) == "" <==> IsBlank(StripMarkers(content))
  {
    var ps := Paragraphs(content);
    KeepParagraphsTrimmed(Split(StripMarkers(content), "\n"));
    JoinEmpty(ps, ParagraphBreak);
    ParagraphsEmptyIff(content);
  }

  /** Empty or white-space-only input formats to the empty string. */
  lemma FormatBlankInput(content: string)
    requires IsBlank(content)
    ensures FormatContent(content) == ""
  {
    var s := StripMarkers(content);
    forall i | 0 <= i < |s| ensures IsWhitespace(s[i]) {
      assert s[i] in s;
    }
    FormatEmptyIff(content);
  }

  /** Filtering and trimming lines distributes over concatenation of line
      lists: the paragraphs keep the order of the lines they come from. */
  lemma {:induction false} KeepParagraphsAppend(a: seq<string>, b: seq<string>)
    ensures KeepParagraphs(a + b) == KeepParagraphs(a) + KeepParagraphs(b)
    decreases |a|
  {
    if |a| == 0 {
      assert a + b == b;
    } else {
      assert (a + b)[1..] == a[1..] + b;
      KeepParagraphsAppend(a[1..], b);
    }
  }

  // ---------------------------------------------------------------- worked examples

  /** Text with none of the characters the markers and line structure use. */
  predicate IsPlainWord(w: string) {
    w != "" && IsTrimmed(w) && '*' !in w && '#' !in w && '-' !in w && '\n' !in w
  }

  /** A single non-blank line free of line feeds formats to its trimmed self. */
  lemma FormatSingleLine(content: string, y: string)
    requires StripMarkers(content) == y && '\n' !in y && y != "" && IsTrimmed(y)
    ensures FormatContent(content) == y
  {
    SplitNoSeparator(y, "\n");
    TrimTrimmed(y);
    KeepCons(y, []);
    assert [y] + [] == [y];
  }

  lemma KeepCons(line: string, rest: seq<string>)
    ensures KeepParagraphs([line] + rest) ==
      (if Trim(line) == "" then [] else [Trim(line)]) + KeepParagraphs(rest)
  {
    assert ([line] + rest)[1..] == rest;
  }

  /** First pass of the heading example: the rule goes. */
  lemma HeadingRuleStage(input: string, a: string, b: string, nl: string)
    requires IsPlainWord(a) && IsPlainWord(b) && nl == "\n"
    requires input == Bold + a + Bold + nl + nl + Header + " " + b + nl + Rule + nl
    ensures RemoveAll(input, Rule) == Bold + a + Bold + nl + nl + Header + " " + b + nl + nl
  {
    var p := Bold + a + Bold + nl + nl + Header + " " + b + nl;
    RemoveOneOccurrence(p, nl, Rule);
  }

  /** Second pass of the heading example: the header marker goes. */
  lemma HeadingHeaderStage(s1: string, a: string, b: string, nl: string)
    requires IsPlainWord(a) && IsPlainWord(b) && nl == "\n"
    requires s1 == Bold + a + Bold + nl + nl + Header + " " + b + nl + nl
    ensures RemoveAll(s1, Header) == Bold + a + Bold + nl + nl + " " + b + nl + nl
  {
    var x := Bold + a + Bold + nl + nl;
    var y := " " + b + nl + nl;
    assert s1 == x + Header + y && x + y == Bold + a + Bold + nl + nl + " " + b + nl + nl by {
      GroupAroundSixth(Bold, a, Bold, nl, nl, Header, " ", b, nl, nl);
    }
    assert RemoveAll(s1, Header) == x + y by {
      assert '#' !in x && '#' !in y;
      RemoveOneOccurrence(x, y, Header);
    }
  }

  /** Third pass of the heading example: the bold markers go. */
  lemma HeadingBoldStage(s2: string, a: string, b: string, nl: string)
    requires IsPlainWord(a) && IsPlainWord(b) && nl == "\n"
    requires s2 == Bold + a + Bold + nl + nl + " " + b + nl + nl
    ensures RemoveAll(s2, Bold) == a + nl + nl + " " + b + nl + nl
  {
    var y := nl + nl + " " + b + nl + nl;
    var rest := a + Bold + y;
    assert s2 == Bold + rest && a + y == a + nl + nl + " " + b + nl + nl by {
      GroupAfterThree(Bold, a, Bold, nl, nl, " ", b, nl, nl);
    }
    assert RemoveAll(s2, Bold) == RemoveAll(rest, Bold) by {
      RemoveAllDropsFront(rest, Bold);
    }
    assert RemoveAll(rest, Bold) == a + y by {
      assert '*' !in y;
      RemoveOneOccurrence(a, y, Bold);
    }
  }

  lemma StripExample(input: string, a: string, b: string, nl: string)
    requires IsPlainWord(a) && IsPlainWord(b) && nl == "\n"
    requires input == Bold + a + Bold + nl + nl + Header + " " + b + nl + Rule + nl
    ensures StripMarkers(input) == a + nl + nl + " " + b + nl + nl
  {
    HeadingRuleStage(input, a, b, nl);
    HeadingHeaderStage(RemoveAll(input, Rule), a, b, nl);
    HeadingBoldStage(RemoveAll(RemoveAll(input, Rule), Header), a, b, nl);
  }

  lemma LinesExample(s: string, a: string, w: string, nl: string)
    requires '\n' !in a && '\n' !in w && nl == "\n"
    requires s == a + nl + nl + w + nl + nl
    ensures Split(s, nl) == [a, "", w, "", ""]
  {
    var e := "";
    var t1 := w + nl + nl;
    var t2 := nl + t1;
    assert s == a + nl + t2 by {
      GroupFromRight(a, nl, nl, w, nl, nl);
    }
    assert Split(nl, nl) == [e, e] by {
      assert e + nl + e == nl;
      SplitAtSeparator(e, nl, e);
      assert [e] + [e] == [e, e];
    }
    assert Split(t1, nl) == [w, e, e] by {
      SplitAtSeparator(w, nl, nl);
      assert [w] + [e, e] == [w, e, e];
    }
    assert Split(t2, nl) == [e, w, e, e] by {
      assert t2 == e + nl + t1;
      SplitAtSeparator(e, nl, t1);
      assert [e] + [w, e, e] == [e, w, e, e];
    }
    assert Split(s, nl) == [a, e, w, e, e] by {
      SplitAtSeparator(a, nl, t2);
      assert [a] + [e, w, e, e] == [a, e, w, e, e];
    }
  }

  lemma KeepBlank(line: string, rest: seq<string>)
    requires Trim(line) == ""
    ensures KeepParagraphs([line] + rest) == KeepParagraphs(rest)
  {
    assert ([line] + rest)[1..] == rest;
  }

  lemma KeepLine(line: string, rest: seq<string>)
    requires Trim(line) != ""
    ensures KeepParagraphs([line] + rest) == [Trim(line)] + KeepParagraphs(rest)
  {
    assert ([line] + rest)[1..] == rest;
  }

  /** A line list that is all blank yields no paragraphs. */
  lemma KeepTwoBlanks(lines: seq<string>)
    requires |lines| == 2 && lines[0] == "" && lines[1] == ""
    ensures KeepParagraphs(lines) == []
  {
    var rest := lines[1..];
    assert lines == [lines[0]] + rest;
    assert KeepParagraphs(rest) == [] by {
      assert rest == [rest[0]] + [];
      KeepBlank(rest[0], []);
    }
    KeepBlank(lines[0], rest);
  }

  /** The indented heading line of the heading example survives trimmed,
      between blank lines that are dropped. */
  lemma KeepIndentedLine(lines: seq<string>, b: string)
    requires b != "" && IsTrimmed(b)
    requires |lines| == 4 && lines[0] == "" && lines[1] == " " + b && lines[2] == "" && lines[3] == ""
    ensures KeepParagraphs(lines) == [b]
  {
    var rest := lines[1..];
    var blanks := rest[1..];
    assert lines == [lines[0]] + rest;
    assert rest == [rest[0]] + blanks;
    assert KeepParagraphs(blanks) == [] by {
      KeepTwoBlanks(blanks);
    }
    assert KeepParagraphs(rest) == [b] by {
      assert rest[0][1..] == b;
      TrimOneLeading(rest[0]);
      KeepLine(rest[0], blanks);
      assert [b] + [] == [b];
    }
    KeepBlank(lines[0], rest);
  }

  lemma KeepExample(lines: seq<string>, a: string, b: string)
    requires a != "" && IsTrimmed(a) && b != "" && IsTrimmed(b)
    requires |lines| == 5 && lines[0] == a && lines[1] == "" && lines[2] == " " + b
    requires lines[3] == "" && lines[4] == ""
    ensures KeepParagraphs(lines) == [a, b]
  {
    var tail := lines[1..];
    assert lines == [a] + tail;
    assert KeepParagraphs(tail) == [b] by {
      KeepIndentedLine(tail, b);
    }
    assert KeepParagraphs([a] + tail) == [a] + [b] by {
      KeepHead(a, tail, [b]);
    }
  }

  lemma KeepHead(a: string, tail: seq<string>, rest: seq<string>)
    requires a != "" && IsTrimmed(a) && KeepParagraphs(tail) == rest
    ensures KeepParagraphs([a] + tail) == [a] + rest
  {
    TrimTrimmed(a);
    KeepLine(a, tail);
  }

  /** Emphasis, header and rule markers go, blank lines collapse and the
      paragraphs are separated by one blank line: `**a**`, a blank line,
      `### b` and a rule format to `a`, a blank line, `b`. */
  lemma FormatHeadingExample(input: string, a: string, b: string, nl: string)
    requires IsPlainWord(a) && IsPlainWord(b) && nl == "\n"
    requires input == Bold + a + Bold + nl + nl + Header + " " + b + nl + Rule + nl
    ensures FormatContent(input) == a + ParagraphBreak + b
  {
    StripExample(input, a, b, nl);
    var s := StripMarkers(input);
    assert '\n' !in " " + b;
    assert s == a + nl + nl + (" " + b) + nl + nl;
    LinesExample(s, a, " " + b, nl);
    KeepExample(Split(s, "\n"), a, b);
    JoinTwo(a, b, ParagraphBreak);
  }

  /** Step for `FormatExample`: the two words of the instance contain no
      marker or line-break characters, so `FormatHeadingExample` applies. */
  lemma HelloWorldPlain(a: string, b: string)
    requires a == "Hello" && b == "World"
    ensures IsPlainWord(a) && IsPlainWord(b)
  {
  }

  /** The concrete instance: "**Hello**\n\n### World\n---\n" formats to
      "Hello\n\nWorld". */
  lemma FormatExample(input: string)
    requires input == "**" + "Hello" + "**" + "\n" + "\n" + "###" + " " + "World" + "\n" + "---" + "\n"
    ensures FormatContent(input) == "Hello" + "\n\n" + "World"
  {
    HelloWorldPlain("Hello", "World");
    FormatHeadingExample(input, "Hello", "World", "\n");
  }

  /** The rule pass leaves `-**--` alone: no three dashes are adjacent. */
  lemma DashesRuleStage(x: string)
    requires x == "-" + Bold + "--"
    ensures RemoveAll(x, Rule) == x
  {
    assert !StartsWith(x, Rule) by { assert x[1] != Rule[1]; }
    RemoveAllKeepsFront(x, Rule);
    assert x[1..] == Bold + "--";
    RemoveAllSkipsClean(Bold, "--", Rule);
    RemoveAllShort("--", Rule);
    assert x == [x[0]] + x[1..];
  }

  /** Removing `**` from `-**--` joins the dashes into a fresh rule. */
  lemma DashesStrip(x: string)
    requires x == "-" + Bold + "--"
    ensures StripMarkers(x) == Rule
  {
    DashesRuleStage(x);
    RemoveAllSkipsClean(x, "", Header);
    assert x + "" == x;
    RemoveOneOccurrence("-", "--", Bold);
    assert "-" + "--" == Rule;
  }

  /** `-**--` formats to a rule. */
  lemma DashesFormat(x: string)
    requires x == "-" + Bold + "--"
    ensures FormatContent(x) == Rule
  {
    DashesStrip(x);
    FormatSingleLine(x, Rule);
  }

  /** A lone rule formats to nothing. */
  lemma RuleVanishes(y: string)
    requires y == Rule
    ensures FormatContent(y) == ""
  {
    assert y == "" + Rule + "";
    RemoveOneOccurrence("", "", Rule);
    assert StripMarkers(y) == "";
    KeepCons("", []);
    assert [""] + [] == [""];
  }

  /** Reformatting is not idempotent: a second pass over the output of
      `-**--` removes the rule the first pass produced. */
  lemma FormatNotIdempotent(x: string)
    requires x == "-**--"
    ensures FormatContent(FormatContent(x)) != FormatContent(x)
  {
    assert x == "-" + Bold + "--";
    DashesFormat(x);
    RuleVanishes(FormatContent(x));
  }
}

=== FILE: prompt.dfy ===
/** Construction of the instruction sent upstream (src/app/api/generate/route.ts):
    a fixed opening sentence, an optional title clause, an optional topics
    clause, the sentence of the chosen writing perspective and a fixed
    closing reminder of the word limit. */
module Prompt {
  import opened Wrappers
  import opened Strings

  /** The five writing perspectives of the fixed instruction table. */
  datatype Perspective =
    | SoftwareEngineer
    | Student
    | Teacher
    | BusinessProfessional
    | CasualBlogger

  /** The request body (`GenerateBlogRequest` in src/types/blog.ts): every
      field may be omitted. */
  datatype BlogRequest = BlogRequest(
    title: Option<string>,
    keywords: Option<seq<string>>,
    perspective: Option<string>)

  // The longer sentences are written as sums of short literal pieces; they
  // denote the same strings and keep the verifier's reasoning about them cheap.
  const Base := "Write a detailed " + "blog post in " + "approximately 500 " + "words"
  const AboutIntro := " about "
  const TopicsIntro := " covering the " + "following topics: "
  const TopicSeparator := ", "
  const InstructionIntro := ". "
  const Closing := " Keep the content " + "concise and focused " + "within the 500-word " + "limit."
  const DefaultKey := "casual-blogger"

  /** What a JavaScript template literal prints for a missing table entry. */
  const Undefined := "undefined"

  /** The key under which each perspective is sent and looked up. */
  function Key(p: Perspective): string {
    match p
    case SoftwareEngineer => "software-engineer"
    case Student => "student"
    case Teacher => "teacher"
    case BusinessProfessional => "business-professional"
    case CasualBlogger => "casual-blogger"
  }

  /** The table of perspective sentences, inserted verbatim. Like the
      constants above, each sentence is a sum of short literal pieces. */
  function Instruction(p: Perspective): string {
    match p
    case SoftwareEngineer =>
      "Write from the " + "perspective of an " + "experienced " + "software engineer, " + "using technical "
      + "terminology and " + "practical " + "development " + "insights."
    case Student =>
      "Write from a " + "student's " + "perspective, " + "focusing on " + "learning "
      + "experiences and " + "relatable " + "explanations."
    case Teacher =>
      "Write as an " + "educator, " + "emphasizing clear " + "explanations and " + "educational value."
    case BusinessProfessional =>
      "Write from a " + "business " + "professional's " + "viewpoint, focusing " + "on practical "
      + "applications and " + "business value."
    case CasualBlogger =>
      "Write in a casual, " + "conversational " + "tone, making the " + "content accessible " + "to a general "
      + "audience."
  }

  /** Looking a key up in the table: found exactly for the five keys. */
  function LookupKey(key: string): (r: Option<Perspective>)
    ensures forall p :: r == Some(p) <==> Key(p) == key
  {
    if key == "software-engineer" then Some(SoftwareEngineer)
    else if key == "student" then Some(Student)
    else if key == "teacher" then Some(Teacher)
    else if key == "business-professional" then Some(BusinessProfessional)
    else if key == "casual-blogger" then Some(CasualBlogger)
    else None
  }

  /** `body.perspective || 'casual-blogger'` looked up in the table: an
      omitted or empty key falls back to the default before the lookup. */
  function ResolvePerspective(perspective: Option<string>): Option<Perspective> {
    var key := if perspective.None? || perspective.value == "" then DefaultKey else perspective.value;
    LookupKey(key)
  }

  /** The sentence interpolated after ". ": the table entry, or the text
      `undefined` when the key is not in the table. */
  function InstructionText(perspective: Option<string>): string {
    match ResolvePerspective(perspective)
    case Some(p) => Instruction(p)
    case None => Undefined
  }

  /** An omitted or empty perspective selects the casual-blogger sentence;
      each of the five keys selects its own sentence; any other key selects
      the text `undefined`. */
  lemma InstructionSelection(perspective: Option<string>)
    ensures perspective.None? || perspective == Some("") ==>
      InstructionText(perspective) == Instruction(CasualBlogger)
    ensures forall p :: perspective == Some(Key(p)) ==> InstructionText(perspective) == Instruction(p)
    ensures perspective.Some? && perspective.value != "" && (forall p :: Key(p) != perspective.value)
      ==> InstructionText(perspective) == Undefined
  {
  }

  /** `if (title)`: present and non-empty. */
  predicate HasTitle(title: Option<string>) {
    title.Some? && title.value != ""
  }

  /** `if (keywords && keywords.length > 0)`. */
  predicate HasTopics(keywords: Option<seq<string>>) {
    keywords.Some? && |keywords.value| > 0
  }

  function TitleClause(title: Option<string>): string {
    if HasTitle(title) then AboutIntro + title.value else ""
  }

  function TopicsClause(keywords: Option<seq<string>>): string {
    if HasTopics(keywords) then TopicsIntro + Join(keywords.value, TopicSeparator) else ""
  }

  /** The prompt: always opens with the fixed request for a ~500-word post,
      always closes with the word-limit reminder, and the perspective
      sentence sits right before that reminder. */
  function BuildPrompt(req: BlogRequest): (prompt: string)
    ensures StartsWith(prompt, Base)
    ensures EndsWith(prompt, Closing)
    ensures EndsWith(prompt, InstructionIntro + InstructionText(req.perspective) + Closing)
  {
    SixPieces(Base, TitleClause(req.title), TopicsClause(req.keywords),
              InstructionIntro, InstructionText(req.perspective), Closing);
    Base + TitleClause(req.title) + TopicsClause(req.keywords)
      + InstructionIntro + InstructionText(req.perspective) + Closing
  }

  /** The prompt with its opening sentence cut off. */
  function AfterBase(req: BlogRequest): string {
    BuildPrompt(req)[|Base|..]
  }

  /** The prompt after the opening sentence and the title clause. */
  function AfterTitle(req: BlogRequest): string
    requires |Base| + |TitleClause(req.title)| <= |BuildPrompt(req)|
  {
    BuildPrompt(req)[|Base| + |TitleClause(req.title)|..]
  }

  lemma PromptLayout(req: BlogRequest)
    ensures AfterBase(req) ==
      TitleClause(req.title) + TopicsClause(req.keywords) + InstructionIntro + InstructionText(req.perspective) + Closing
    ensures |Base| + |TitleClause(req.title)| <= |BuildPrompt(req)|
    ensures AfterTitle(req) ==
      TopicsClause(req.keywords) + InstructionIntro + InstructionText(req.perspective) + Closing
  {
    SixPieces(Base, TitleClause(req.title), TopicsClause(req.keywords),
              InstructionIntro, InstructionText(req.perspective), Closing);
  }

  /** The " about {title}" clause follows the opening sentence exactly when a
      non-empty title was given; an omitted or empty title adds nothing. */
  lemma TitleClausePlacement(req: BlogRequest)
    ensures StartsWith(AfterBase(req), AboutIntro) <==> HasTitle(req.title)
    ensures HasTitle(req.title) ==> StartsWith(AfterBase(req), AboutIntro + req.title.value)
  {
    PromptLayout(req);
    var rest := AfterBase(req);
    var t, k := TitleClause(req.title), TopicsClause(req.keywords);
    var x, i, z := InstructionIntro, InstructionText(req.perspective), Closing;
    PrefixOfFour(t + k, x, i, z);
    PrefixShorten(rest, t, k);
    if HasTitle(req.title) {
      PrefixShorten(rest, AboutIntro, req.title.value);
    } else {
      assert t + k == k;
      if HasTopics(req.keywords) {
        PrefixShorten(rest, TopicsIntro, Join(req.keywords.value, TopicSeparator));
        assert rest[1] == TopicsIntro[1];
        DifferAt(rest, AboutIntro, 1);
      } else {
        assert k + x == x;
        PrefixOfFour(x, i, z, "");
        assert x + i + z + "" == x + i + z;
        assert rest[0] == x[0];
        DifferAt(rest, AboutIntro, 0);
      }
    }
  }

  /** The " covering the following topics: " clause follows the title clause
      exactly when a non-empty keyword list was given, and lists the keywords
      joined by ", " in their order. */
  lemma TopicsClausePlacement(req: BlogRequest)
    ensures |Base| + |TitleClause(req.title)| <= |BuildPrompt(req)|
    ensures StartsWith(AfterTitle(req), TopicsIntro) <==> HasTopics(req.keywords)
    ensures HasTopics(req.keywords) ==>
      StartsWith(AfterTitle(req), TopicsIntro + Join(req.keywords.value, TopicSeparator))
  {
    PromptLayout(req);
    var rest := AfterTitle(req);
    var k := TopicsClause(req.keywords);
    var x, i, z := InstructionIntro, InstructionText(req.perspective), Closing;
    PrefixOfFour(k, x, i, z);
    if HasTopics(req.keywords) {
      PrefixShorten(rest, TopicsIntro, Join(req.keywords.value, TopicSeparator));
    } else {
      assert k + x == x;
      PrefixOfFour(x, i, z, "");
      assert x + i + z + "" == x + i + z;
      assert rest[0] == x[0];
      DifferAt(rest, TopicsIntro, 0);
    }
  }

  /** A keyword list holding one empty keyword still introduces the topics
      clause, with nothing listed before the perspective sentence. */
  lemma EmptyKeywordStillIntroducesTopics(req: BlogRequest)
    requires req.keywords == Some([""])
    ensures |Base| + |TitleClause(req.title)| <= |BuildPrompt(req)|
    ensures StartsWith(AfterTitle(req), TopicsIntro + InstructionIntro)
  {
    PromptLayout(req);
    var k := TopicsClause(req.keywords);
    assert k == TopicsIntro;
    PrefixOfFour(k + InstructionIntro, InstructionText(req.perspective), Closing, "");
    assert k + InstructionIntro + InstructionText(req.perspective) + Closing + ""
        == k + InstructionIntro + InstructionText(req.perspective) + Closing;
  }

  /** Lengths of the five perspective sentences. */
  function InstructionLength(p: Perspective): nat {
    match p
    case SoftwareEngineer => 127
    case Student => 96
    case Teacher => 75
    case BusinessProfessional => 102
    case CasualBlogger => 92
  }

  lemma InstructionLengths(p: Perspective)
    ensures |Instruction(p)| == InstructionLength(p)
  {
  }

  /** The five perspective sentences are pairwise different, so the sentence
      in a prompt tells which perspective was chosen. */
  lemma InstructionsDistinct(p: Perspective, q: Perspective)
    requires p != q
    ensures Instruction(p) != Instruction(q)
  {
    InstructionLengths(p);
    InstructionLengths(q);
  }

  /** A request with every field omitted still yields the opening sentence,
      the default perspective's sentence and the closing reminder. */
  lemma AllFieldsOmitted(req: BlogRequest)
    requires req == BlogRequest(None, None, None)
    ensures BuildPrompt(req) == Base + InstructionIntro + Instruction(CasualBlogger) + Closing
  {
    assert TitleClause(req.title) == "" && TopicsClause(req.keywords) == "";
    assert Base + "" + "" == Base;
  }
}

=== FILE: relay.dfy ===
/** The `POST` handler of src/app/api/generate/route.ts as one exchange: the
    parsed request body and the configured API key decide whether an upstream
    chat-completion request is sent; the upstream reply decides whether the
    client gets a JSON error or a text stream of decoded fragments.

    The network, the body reader and JSON parsing are parameters: the parsed
    body (`None` when `request.json()` throws), the key (`None` when unset),
    the upstream reply, and the payload extractor. */
module Relay {
  import opened Wrappers
  import opened Strings
  import opened Prompt
  import opened Decoder

  const Model := "deepseek-chat"
  const MaxTokens := 2000
  const Temperature: real := 0.7
  const BearerPrefix := "Bearer "
  const ServerError := 500
  const KeyMissing := "Deepseek API key is not configured"
  const GenericFailure := "Failed to generate blog post"

  /** The chat-completion request the handler sends upstream: one user
      message holding the prompt, streamed. */
  datatype UpstreamRequest = UpstreamRequest(
    authorization: string,
    model: string,
    prompt: string,
    temperature: real,
    maxTokens: nat,
    stream: bool)

  /** What the upstream body delivers: its chunks in arrival order and
      whether a read failed after the last of them. */
  datatype UpstreamBody = UpstreamBody(chunks: seq<string>, readFailed: bool)

  /** The upstream reply: the fetch rejected, a non-2xx status, or a 2xx
      status with or without a readable body. */
  datatype UpstreamReply =
    | FetchFailed
    | NotOk
    | Ok(body: Option<UpstreamBody>)

  /** What the handler answers: a JSON `{ error }` with a status, or a 200
      stream: the text fragments enqueued on it, in order, and whether it
      ends normally or with an error. */
  datatype Response =
    | JsonError(status: nat, message: string)
    | TextStream(fragments: seq<string>, failed: bool)

  /** One run of the handler: the upstream request it sent, if any, and its
      response. */
  datatype Exchange = Exchange(sent: Option<UpstreamRequest>, response: Response)

  /** `if (!DEEPSEEK_API_KEY)` fails for an unset and for an empty key. */
  predicate HasKey(apiKey: Option<string>) {
    apiKey.Some? && apiKey.value != ""
  }

  function UpstreamFor(req: BlogRequest, key: string): UpstreamRequest {
    UpstreamRequest(BearerPrefix + key, Model, BuildPrompt(req), Temperature, MaxTokens, true)
  }

  /** The stream handed back for a 2xx upstream reply: no reader means an
      immediately closed, empty stream; otherwise the decoded fragments of
      every chunk, ending with an error if a read failed. */
  function Relayed(body: Option<UpstreamBody>, extract: Extractor): Response {
    match body
    case None => TextStream([], false)
    case Some(b) => TextStream(DecodeStream(b.chunks, extract), b.readFailed)
  }

  /** The handler. */
  function Post(body: Option<BlogRequest>, apiKey: Option<string>, reply: UpstreamReply, extract: Extractor)
    : (r: Exchange)
    ensures r.sent.Some? <==> body.Some? && HasKey(apiKey)
    ensures body.None? ==> r.response == JsonError(ServerError, GenericFailure)
    ensures body.Some? && !HasKey(apiKey) ==> r.response == JsonError(ServerError, KeyMissing)
    ensures r.sent.Some? ==> StartsWith(r.sent.value.prompt, Base) && EndsWith(r.sent.value.prompt, Closing)
    ensures r.sent.Some? && !reply.Ok? ==> r.response == JsonError(ServerError, GenericFailure)
    ensures r.response.TextStream? <==> r.sent.Some? && reply.Ok?
  {
    if body.None? then Exchange(None, JsonError(ServerError, GenericFailure))
    else if !HasKey(apiKey) then Exchange(None, JsonError(ServerError, KeyMissing))
    else
      var sent := UpstreamFor(body.value, apiKey.value);
      match reply
      case FetchFailed => Exchange(Some(sent), JsonError(ServerError, GenericFailure))
      case NotOk => Exchange(Some(sent), JsonError(ServerError, GenericFailure))
      case Ok(b) => Exchange(Some(sent), Relayed(b, extract))
  }

  /** The request sent upstream carries the configured key as a bearer
      token and the prompt built from the request body, with the fixed model,
      temperature, token limit and streaming flag. */
  lemma SentRequest(body: Option<BlogRequest>, apiKey: Option<string>, reply: UpstreamReply, extract: Extractor)
    requires body.Some? && HasKey(apiKey)
    ensures Post(body, apiKey, reply, extract).sent ==
      Some(UpstreamRequest(BearerPrefix + apiKey.value, Model, BuildPrompt(body.value), Temperature, MaxTokens, true))
  {
  }

  /** Every streamed fragment is non-empty, and the stream is what decoding
      the upstream chunks one by one yields. */
  lemma StreamedFragments(body: BlogRequest, key: string, up: UpstreamBody, extract: Extractor)
    requires key != ""
    ensures Post(Some(body), Some(key), Ok(Some(up)), extract).response ==
      TextStream(DecodeStream(up.chunks, extract), up.readFailed)
    ensures forall i :: 0 <= i < |Post(Some(body), Some(key), Ok(Some(up)), extract).response.fragments| ==>
      Post(Some(body), Some(key), Ok(Some(up)), extract).response.fragments[i] != ""
  {
    DecodeStreamNonEmpty(up.chunks, extract);
  }

  /** Relaying distributes over the chunk sequence: the fragments relayed for
      the chunks `a + b` are those for `a` followed by those for `b`. */
  lemma RelayConcatenates(a: seq<string>, b: seq<string>, failed: bool, extract: Extractor)
    ensures Relayed(Some(UpstreamBody(a + b, failed)), extract).fragments ==
      Relayed(Some(UpstreamBody(a, failed)), extract).fragments
      + Relayed(Some(UpstreamBody(b, failed)), extract).fragments
  {
    DecodeStreamAppend(a, b, extract);
  }

  /** A failing read does not change what was enqueued before it: the handler
      enqueues the same fragments as on a clean end, then errors the stream.
      What the client still reads after the error is not modelled. */
  lemma ReadFailureKeepsFragments(chunks: seq<string>, extract: Extractor)
    ensures Relayed(Some(UpstreamBody(chunks, true)), extract).fragments ==
      Relayed(Some(UpstreamBody(chunks, false)), extract).fragments
    ensures Relayed(Some(UpstreamBody(chunks, true)), extract).failed
  {
  }
}

=== FILE: strings.dfy ===
/** Character-sequence counterparts of the JavaScript string methods the
    application relies on: `trim`, `startsWith`, `split`, `join` and a global
    `replace` of a literal pattern by the empty string.

    Characters are Unicode scalar values; JavaScript strings are sequences of
    UTF-16 code units, which only differs for characters outside the Basic
    Multilingual Plane and plays no part in the properties stated here. */
module Strings {

  /** The characters `String.prototype.trim` removes: the ECMAScript WhiteSpace
      set (tab, vertical tab, form feed, space, no-break space, byte order mark
      and the Unicode space separators) and the LineTerminator set. */
  predicate IsWhitespace(c: char) {
    || c == '\t' || c == '\n' || c == '\U{000B}' || c == '\U{000C}' || c == '\r'
    || c == ' ' || c == '\U{00A0}' || c == '\U{1680}'
    || ('\U{2000}' <= c <= '\U{200A}')
    || c == '\U{2028}' || c == '\U{2029}' || c == '\U{202F}' || c == '\U{205F}'
    || c == '\U{3000}' || c == '\U{FEFF}'
  }

  /** Every character is white space; `s.trim() === ''` holds exactly for these. */
  predicate IsBlank(s: string) {
    forall i :: 0 <= i < |s| ==> IsWhitespace(s[i])
  }

  /** Neither end is white space: the shape of every result of `trim`. */
  predicate IsTrimmed(s: string) {
    |s| == 0 || (!IsWhitespace(s[0]) && !IsWhitespace(s[|s| - 1]))
  }

  predicate StartsWith(s: string, prefix: string) {
    |prefix| <= |s| && s[..|prefix|] == prefix
  }

  predicate EndsWith(s: string, suffix: string) {
    |suffix| <= |s| && s[|s| - |suffix|..] == suffix
  }

  /** `pat` occurs somewhere in `s` as a contiguous substring. */
  predicate Occurs(pat: string, s: string) {
    exists i, j :: 0 <= i <= |s| && i <= j <= |s| && j - i == |pat| && s[i..j] == pat
  }

  /** No two neighbouring characters of `s` are both `c`. */
  ghost predicate NoPair(s: string, c: char) {
    forall i, j :: 0 <= i < j < |s| && j == i + 1 ==> !(s[i] == c && s[j] == c)
  }

  /** Number of occurrences of the character `c` in `s`. */
  function Count(s: string, c: char): nat {
    if |s| == 0 then 0 else (if s[0] == c then 1 else 0) + Count(s[1..], c)
  }

  /** All strings of `parts` run together, in order. */
  function Concat(parts: seq<string>): string {
    if |parts| == 0 then "" else parts[0] + Concat(parts[1..])
  }

  // ---------------------------------------------------------------- trim

  /** Drops the leading white space. */
  function TrimStart(s: string): (r: string)
    ensures |r| <= |s| && r == s[|s| - |r|..]
    ensures IsBlank(s[..|s| - |r|])
    ensures |r| == 0 || !IsWhitespace(r[0])
  {
    if |s| > 0 && IsWhitespace(s[0]) then
      var r := TrimStart(s[1..]);
      TrimStartStep(s, s[1..], r);
      r
    else s
  }

  /** Dropping one more leading white-space character keeps the dropped part
      blank. */
  lemma TrimStartStep(s: string, t: string, r: string)
    requires |s| > 0 && IsWhitespace(s[0]) && t == s[1..]
    requires |r| <= |t| && r == t[|t| - |r|..] && IsBlank(t[..|t| - |r|])
    ensures |r| <= |s| && r == s[|s| - |r|..] && IsBlank(s[..|s| - |r|])
  {
    var k := |s| - |r|;
    assert t[k - 1..] == s[k..];
    assert s[..k] == [s[0]] + t[..k - 1];
    BlankCons(s[0], t[..k - 1]);
  }

  lemma BlankCons(c: char, t: string)
    requires IsWhitespace(c) && IsBlank(t)
    ensures IsBlank([c] + t)
  {
    forall i | 0 <= i < |[c] + t| ensures IsWhitespace(([c] + t)[i]) {
      if i > 0 { assert ([c] + t)[i] == t[i - 1]; }
    }
  }

  /** Drops the trailing white space. */
  function TrimEnd(s: string): (r: string)
    ensures |r| <= |s| && r == s[..|r|]
    ensures IsBlank(s[|r|..])
    ensures |r| == 0 || !IsWhitespace(r[|r| - 1])
  {
    if |s| > 0 && IsWhitespace(s[|s| - 1]) then
      var r := TrimEnd(s[..|s| - 1]);
      TrimEndStep(s, s[..|s| - 1], r);
      r
    else s
  }

  /** Dropping one more trailing white-space character keeps the dropped part
      blank. */
  lemma TrimEndStep(s: string, t: string, r: string)
    requires |s| > 0 && IsWhitespace(s[|s| - 1]) && t == s[..|s| - 1]
    requires |r| <= |t| && r == t[..|r|] && IsBlank(t[|r|..])
    ensures |r| <= |s| && r == s[..|r|] && IsBlank(s[|r|..])
  {
    assert s[|r|..] == t[|r|..] + [s[|s| - 1]];
    assert forall i :: |r| <= i < |s| ==> IsWhitespace(s[i]) by {
      forall i | |r| <= i < |s| ensures IsWhitespace(s[i]) {
        if i < |s| - 1 { assert s[i] == t[|r|..][i - |r|]; }
      }
    }
  }

  /** `String.prototype.trim`: the middle of `s` once white space is dropped
      from both ends. */
  function Trim(s: string): (r: string)
    ensures IsTrimmed(r)
    ensures r == "" <==> IsBlank(s)
  {
    var t := TrimStart(s);
    var r := TrimEnd(t);
    assert r == "" ==> IsBlank(s) by {
      if r == "" {
        assert t[0..] == t;
        assert s == s[..|s| - |t|] + t;
      }
    }
    r
  }

  /** What `trim` cuts: the result is the part of `s` after a blank prefix
      (of the length `TrimStart` drops) and before a blank suffix. */
  lemma TrimCut(s: string, r: string, k: int)
    requires r == Trim(s) && k == |s| - |TrimStart(s)|
    ensures 0 <= k && k + |r| <= |s| && r == s[k..k + |r|]
    ensures IsBlank(s[..k]) && IsBlank(s[k + |r|..])
  {
    var t := TrimStart(s);
    assert t == s[k..] && IsBlank(s[..k]);
    assert r == TrimEnd(t);
    EndCutInside(s, t, r, k);
  }

  /** Cutting a prefix and then a suffix off `s` is taking a middle slice. */
  lemma EndCutInside(s: string, t: string, r: string, k: nat)
    requires k <= |s| && t == s[k..] && |r| <= |t| && r == t[..|r|] && IsBlank(t[|r|..])
    ensures k + |r| <= |s| && r == s[k..k + |r|] && IsBlank(s[k + |r|..])
  {
    assert t[|r|..] == s[k + |r|..];
  }

  // ---------------------------------------------------------------- split / join

  /** `Array.prototype.join(sep)`: the parts with `sep` between neighbours. */
  function Join(parts: seq<string>, sep: string): string {
    if |parts| == 0 then ""
    else if |parts| == 1 then parts[0]
    else parts[0] + sep + Join(parts[1..], sep)
  }

  /** `String.prototype.split(sep)` for a non-empty literal separator: the
      pieces between the occurrences of `sep` found scanning left to right,
      with an empty piece wherever two occurrences touch or one sits at an end. */
  function Split(s: string, sep: string): (r: seq<string>)
    requires |sep| > 0
    ensures |r| > 0
    decreases |s|
  {
    if |s| == 0 then [""]
    else if StartsWith(s, sep) then [""] + Split(s[|sep|..], sep)
    else
      var rest := Split(s[1..], sep);
      [[s[0]] + rest[0]] + rest[1..]
  }

  /** A global `replace` of the literal `pat` by the empty string: scanning
      left to right, every occurrence that does not overlap an earlier removed
      one is dropped. */
  function RemoveAll(s: string, pat: string): (r: string)
    requires |pat| > 0
    ensures |r| <= |s|
    ensures forall c :: c in r ==> c in s
    decreases |s|
  {
    if |s| == 0 then ""
    else if StartsWith(s, pat) then RemoveAll(s[|pat|..], pat)
    else [s[0]] + RemoveAll(s[1..], pat)
  }

  // ---------------------------------------------------------------- concatenation

  lemma {:induction false} ConcatAppend(a: seq<string>, b: seq<string>)
    ensures Concat(a + b) == Concat(a) + Concat(b)
    decreases |a|
  {
    if |a| == 0 {
      assert a + b == b;
    } else {
      assert (a + b)[1..] == a[1..] + b;
      ConcatAppend(a[1..], b);
    }
  }

  lemma BlankConcat(a: string, b: string)
    ensures IsBlank(a + b) <==> IsBlank(a) && IsBlank(b)
  {
    if IsBlank(a) && IsBlank(b) {
      forall i | 0 <= i < |a + b| ensures IsWhitespace((a + b)[i]) {
        if i >= |a| { assert (a + b)[i] == b[i - |a|]; }
      }
    }
    if IsBlank(a + b) {
      forall i | 0 <= i < |a| ensures IsWhitespace(a[i]) {
        assert a[i] == (a + b)[i];
      }
      forall i | 0 <= i < |b| ensures IsWhitespace(b[i]) {
        assert b[i] == (a + b)[|a| + i];
      }
    }
  }

  // ---------------------------------------------------------------- split / join laws

  /** Joining the pieces of a split with the same separator gives back the
      original string: `s.split(sep).join(sep) === s`. */
  lemma {:induction false} SplitJoin(s: string, sep: string)
    requires |sep| > 0
    ensures Join(Split(s, sep), sep) == s
    decreases |s|
  {
    if |s| == 0 {
    } else if StartsWith(s, sep) {
      SplitJoin(s[|sep|..], sep);
      JoinEmptyHead(Split(s[|sep|..], sep), sep);
      assert s == sep + s[|sep|..];
    } else {
      SplitJoin(s[1..], sep);
      JoinExtendHead(s[0], Split(s[1..], sep), sep);
      assert s == [s[0]] + s[1..];
    }
  }

  /** An empty first part leaves a leading separator. */
  lemma JoinEmptyHead(parts: seq<string>, sep: string)
    requires |parts| > 0
    ensures Join([""] + parts, sep) == sep + Join(parts, sep)
  {
    assert ([""] + parts)[1..] == parts;
  }

  /** Prefixing the first part with a character prefixes the join with it. */
  lemma JoinExtendHead(c: char, parts: seq<string>, sep: string)
    requires |parts| > 0
    ensures Join([[c] + parts[0]] + parts[1..], sep) == [c] + Join(parts, sep)
  {
    var r := [[c] + parts[0]] + parts[1..];
    assert r[1..] == parts[1..];
    if |parts| > 1 {
      assert Join(r, sep) == [c] + parts[0] + sep + Join(parts[1..], sep);
    }
  }

  lemma {:induction false} SplitCharCount(s: string, c: char)
    ensures |Split(s, [c])| == Count(s, c) + 1
    decreases |s|
  {
    if |s| == 0 {
    } else if s[0] == c {
      assert StartsWith(s, [c]);
      SplitCharCount(s[1..], c);
    } else {
      assert !StartsWith(s, [c]);
      SplitCharCount(s[1..], c);
    }
  }

  /** No piece of a split on a single character contains that character. */
  lemma {:induction false} SplitCharPieces(s: string, c: char)
    ensures forall i :: 0 <= i < |Split(s, [c])| ==> c !in Split(s, [c])[i]
    decreases |s|
  {
    if |s| == 0 {
    } else if s[0] == c {
      assert StartsWith(s, [c]);
      SplitCharPieces(s[1..], c);
    } else {
      assert !StartsWith(s, [c]);
      SplitCharPieces(s[1..], c);
      var rest := Split(s[1..], [c]);
      assert c !in [s[0]] + rest[0];
    }
  }

  /** Splitting on a single character distributes over a concatenation that
      places that character at the seam. */
  lemma {:induction false} SplitCharConcat(a: string, b: string, c: char)
    ensures Split(a + [c] + b, [c]) == Split(a, [c]) + Split(b, [c])
    decreases |a|
  {
    var s := a + [c] + b;
    if |a| == 0 {
      assert s == [c] + b;
      assert StartsWith(s, [c]);
      assert s[1..] == b;
    } else if a[0] == c {
      assert StartsWith(s, [c]);
      assert StartsWith(a, [c]);
      assert s[1..] == a[1..] + [c] + b;
      SplitCharConcat(a[1..], b, c);
    } else {
      assert s[0] == a[0];
      assert !StartsWith(s, [c]);
      assert !StartsWith(a, [c]);
      assert s[1..] == a[1..] + [c] + b;
      SplitCharConcat(a[1..], b, c);
    }
  }

  /** A string that does not contain the separator's first character splits
      into itself alone. */
  lemma {:induction false} SplitNoSeparator(p: string, sep: string)
    requires |sep| > 0 && sep[0] !in p
    ensures Split(p, sep) == [p]
    decreases |p|
  {
    if |p| > 0 {
      assert !StartsWith(p, sep);
      SplitNoSeparator(p[1..], sep);
      assert p == [p[0]] + p[1..];
    }
  }

  /** A piece free of the separator's first character, followed by the
      separator, splits off as exactly that piece. */
  lemma {:induction false} SplitAtSeparator(p: string, sep: string, t: string)
    requires |sep| > 0 && sep[0] !in p
    ensures Split(p + sep + t, sep) == [p] + Split(t, sep)
    decreases |p|
  {
    var s := p + sep + t;
    if |p| == 0 {
      assert s == sep + t;
      assert StartsWith(s, sep);
      assert s[|sep|..] == t;
    } else {
      assert s[0] == p[0];
      assert !StartsWith(s, sep);
      assert s[1..] == p[1..] + sep + t;
      SplitAtSeparator(p[1..], sep, t);
      assert p == [p[0]] + p[1..];
    }
  }

  /** Splitting a join recovers the parts, provided no part contains the
      separator's first character. */
  lemma {:induction false} SplitOfJoin(parts: seq<string>, sep: string)
    requires |parts| > 0 && |sep| > 0
    requires forall i :: 0 <= i < |parts| ==> sep[0] !in parts[i]
    ensures Split(Join(parts, sep), sep) == parts
    decreases |parts|
  {
    if |parts| == 1 {
      SplitNoSeparator(parts[0], sep);
    } else {
      SplitAtSeparator(parts[0], sep, Join(parts[1..], sep));
      SplitOfJoin(parts[1..], sep);
      assert parts == [parts[0]] + parts[1..];
    }
  }

  /** The global removal of `pat` keeps exactly the pieces `split(pat)`
      finds between its occurrences, in order: `s.replace(/pat/g, '')` is
      `s.split(pat).join('')`. With `SplitJoin`, the removed text is exactly
      the occurrences `split` cuts at. */
  lemma {:induction false} RemoveAllKeepsPieces(s: string, pat: string)
    requires |pat| > 0
    ensures RemoveAll(s, pat) == Concat(Split(s, pat))
    decreases |s|
  {
    if |s| == 0 {
    } else if StartsWith(s, pat) {
      RemoveAllKeepsPieces(s[|pat|..], pat);
      var rest := Split(s[|pat|..], pat);
      assert ([""] + rest)[1..] == rest;
    } else {
      RemoveAllKeepsPieces(s[1..], pat);
      var rest := Split(s[1..], pat);
      var pieces := [[s[0]] + rest[0]] + rest[1..];
      assert pieces[1..] == rest[1..];
      assert Concat(rest) == rest[0] + Concat(rest[1..]);
    }
  }

  /** A join of non-empty parts is empty exactly when there are no parts. */
  lemma JoinEmpty(parts: seq<string>, sep: string)
    requires forall i :: 0 <= i < |parts| ==> parts[i] != ""
    ensures Join(parts, sep) == "" <==> |parts| == 0
  {
    if |parts| > 1 {
      assert |Join(parts, sep)| >= |parts[0]| > 0;
    }
  }

  /** With a white-space separator, a join is blank exactly when every part is. */
  lemma {:induction false} JoinBlank(parts: seq<string>, sep: string)
    requires IsBlank(sep)
    ensures IsBlank(Join(parts, sep)) <==> forall i :: 0 <= i < |parts| ==> IsBlank(parts[i])
    decreases |parts|
  {
    if |parts| > 1 {
      JoinBlank(parts[1..], sep);
      BlankConcat(parts[0] + sep, Join(parts[1..], sep));
      BlankConcat(parts[0], sep);
      if forall i :: 0 <= i < |parts[1..]| ==> IsBlank(parts[1..][i]) {
        forall i | 0 < i < |parts| ensures IsBlank(parts[i]) {
          assert parts[i] == parts[1..][i - 1];
        }
      }
    }
  }

  // ---------------------------------------------------------------- doubled characters

  lemma NoPairConcat(a: string, b: string, c: char)
    ensures NoPair(a + b, c) <==>
      NoPair(a, c) && NoPair(b, c) && !(|a| > 0 && |b| > 0 && a[|a| - 1] == c && b[0] == c)
  {
    var s := a + b;
    if NoPair(s, c) {
      forall i | 0 <= i < |a| - 1 ensures !(a[i] == c && a[i + 1] == c) {
        assert a[i] == s[i] && a[i + 1] == s[i + 1];
      }
      forall i | 0 <= i < |b| - 1 ensures !(b[i] == c && b[i + 1] == c) {
        assert b[i] == s[|a| + i] && b[i + 1] == s[|a| + i + 1];
      }
      if |a| > 0 && |b| > 0 {
        assert s[|a| - 1] == a[|a| - 1] && s[|a|] == b[0];
      }
    }
    if NoPair(a, c) && NoPair(b, c) && !(|a| > 0 && |b| > 0 && a[|a| - 1] == c && b[0] == c) {
      forall i | 0 <= i < |s| - 1 ensures !(s[i] == c && s[i + 1] == c) {
        if i >= |a| {
          assert s[i] == b[i - |a|] && s[i + 1] == b[i - |a| + 1];
        } else if i == |a| - 1 {
          assert s[i] == a[|a| - 1] && s[i + 1] == b[0];
        } else {
          assert s[i] == a[i] && s[i + 1] == a[i + 1];
        }
      }
    }
  }

  /** A pair occurs as a substring exactly when two neighbouring characters form it. */
  lemma NoPairNotOccurs(s: string, c: char)
    ensures NoPair(s, c) <==> !Occurs([c, c], s)
  {
    if Occurs([c, c], s) {
      var i, j :| 0 <= i <= |s| && i <= j <= |s| && j - i == 2 && s[i..j] == [c, c];
      assert s[i] == s[i..j][0] && s[i + 1] == s[i..j][1];
    }
    if !NoPair(s, c) {
      var i :| 0 <= i < |s| - 1 && s[i] == c && s[i + 1] == c;
      assert s[i..i + 2] == [c, c];
    }
  }

  /** Removing every `cc` scanning left to right leaves no `cc` behind. */
  lemma {:induction false} RemoveAllNoPair(s: string, c: char)
    ensures NoPair(RemoveAll(s, [c, c]), c)
    decreases |s|
  {
    var pat := [c, c];
    if |s| == 0 {
    } else if StartsWith(s, pat) {
      RemoveAllNoPair(s[2..], c);
    } else {
      var rest := RemoveAll(s[1..], pat);
      RemoveAllNoPair(s[1..], c);
      if s[0] == c && |rest| > 0 {
        assert s[1] != c;
        assert !StartsWith(s[1..], pat);
        assert rest[0] == s[1];
      }
      NoPairConcat([s[0]], rest, c);
    }
  }

  /** A string free of the pattern is left unchanged by its removal. */
  lemma {:induction false} RemoveAllAbsent(s: string, pat: string)
    requires |pat| > 0 && !Occurs(pat, s)
    ensures RemoveAll(s, pat) == s
    decreases |s|
  {
    if |s| > 0 {
      if |pat| <= |s| {
        assert s[0..|pat|] != pat;
      }
      forall i, j | 0 <= i <= |s| - 1 && i <= j <= |s| - 1 && j - i == |pat|
        ensures s[1..][i..j] != pat
      {
        assert s[1..][i..j] == s[i + 1..j + 1];
      }
      RemoveAllAbsent(s[1..], pat);
      assert s == [s[0]] + s[1..];
    }
  }

  /** Every slice of a string free of doubled `c` is free of doubled `c`. */
  lemma SliceNoPair(s: string, lo: nat, hi: nat, c: char)
    requires lo <= hi <= |s| && NoPair(s, c)
    ensures NoPair(s[lo..hi], c)
  {
    var t := s[lo..hi];
    forall i | 0 <= i < |t| - 1 ensures !(t[i] == c && t[i + 1] == c) {
      assert t[i] == s[lo + i] && t[i + 1] == s[lo + i + 1];
    }
  }

  /** Trimming keeps a string free of doubled `c`. */
  lemma TrimNoPair(s: string, c: char)
    requires NoPair(s, c)
    ensures NoPair(Trim(s), c)
  {
    var t := TrimStart(s);
    SliceNoPair(s, |s| - |t|, |s|, c);
    var r := TrimEnd(t);
    SliceNoPair(t, 0, |r|, c);
  }

  /** Trimming adds no character. */
  lemma TrimKeepsOut(s: string, c: char)
    requires c !in s
    ensures c !in Trim(s)
  {
    var t := TrimStart(s);
    assert t == s[|s| - |t|..];
    var r := TrimEnd(t);
    assert r == t[..|r|];
  }

  /** Every part of a join free of doubled `c` is itself free of doubled `c`. */
  lemma {:induction false} JoinNoPairParts(parts: seq<string>, sep: string, c: char)
    requires NoPair(Join(parts, sep), c)
    ensures forall i :: 0 <= i < |parts| ==> NoPair(parts[i], c)
    decreases |parts|
  {
    if |parts| > 1 {
      assert Join(parts, sep) == parts[0] + (sep + Join(parts[1..], sep));
      NoPairConcat(parts[0], sep + Join(parts[1..], sep), c);
      NoPairConcat(sep, Join(parts[1..], sep), c);
      JoinNoPairParts(parts[1..], sep, c);
      forall i | 0 < i < |parts| ensures NoPair(parts[i], c) {
        assert parts[i] == parts[1..][i - 1];
      }
    }
  }

  /** Joining parts free of doubled `c` with a non-empty separator that does
      not contain `c` cannot create a doubled `c`. */
  lemma {:induction false} JoinNoPair(parts: seq<string>, sep: string, c: char)
    requires |sep| > 0 && c !in sep
    requires forall i :: 0 <= i < |parts| ==> NoPair(parts[i], c)
    ensures NoPair(Join(parts, sep), c)
    decreases |parts|
  {
    if |parts| > 1 {
      JoinNoPair(parts[1..], sep, c);
      var tail := Join(parts[1..], sep);
      assert NoPair(sep, c) by {
        forall i | 0 <= i < |sep| - 1 ensures !(sep[i] == c && sep[i + 1] == c) {
          assert sep[i] in sep;
        }
      }
      NoPairConcat(sep, tail, c);
      assert sep[|sep| - 1] in sep;
      assert (sep + tail)[0] == sep[0];
      assert sep[0] in sep;
      NoPairConcat(parts[0], sep + tail, c);
      assert Join(parts, sep) == parts[0] + (sep + tail);
    }
  }

  /** Text free of the pattern's first character passes through removal untouched. */
  lemma {:induction false} RemoveAllSkipsClean(a: string, t: string, pat: string)
    requires |pat| > 0 && pat[0] !in a
    ensures RemoveAll(a + t, pat) == a + RemoveAll(t, pat)
    decreases |a|
  {
    if |a| > 0 {
      var s := a + t;
      assert s[0] == a[0];
      assert !StartsWith(s, pat) by {
        if |pat| <= |s| {
          assert s[..|pat|][0] == a[0];
        }
      }
      assert RemoveAll(s, pat) == [s[0]] + RemoveAll(s[1..], pat);
      assert s[1..] == a[1..] + t;
      RemoveAllSkipsClean(a[1..], t, pat);
      assert a == [a[0]] + a[1..];
    } else {
      assert a + t == t;
    }
  }

  /** An occurrence at the front is dropped. */
  lemma RemoveAllDropsFront(t: string, pat: string)
    requires |pat| > 0
    ensures RemoveAll(pat + t, pat) == RemoveAll(t, pat)
  {
    assert StartsWith(pat + t, pat);
    assert (pat + t)[|pat|..] == t;
  }

  /** A single occurrence, flanked by text free of the pattern's first
      character, is cut out and nothing else changes. */
  lemma RemoveOneOccurrence(a: string, b: string, pat: string)
    requires |pat| > 0 && pat[0] !in a && pat[0] !in b
    ensures RemoveAll(a + pat + b, pat) == a + b
  {
    assert a + pat + b == a + (pat + b);
    RemoveAllSkipsClean(a, pat + b, pat);
    RemoveAllDropsFront(b, pat);
    RemoveAllSkipsClean(b, "", pat);
    assert b + "" == b;
  }

  /** A string shorter than the pattern cannot contain it. */
  lemma {:induction false} RemoveAllShort(s: string, pat: string)
    requires 0 < |pat| && |s| < |pat|
    ensures RemoveAll(s, pat) == s
    decreases |s|
  {
    if |s| > 0 {
      RemoveAllShort(s[1..], pat);
      assert s == [s[0]] + s[1..];
    }
  }

  /** A front character that does not start an occurrence is kept. */
  lemma RemoveAllKeepsFront(s: string, pat: string)
    requires |pat| > 0 && |s| > 0 && !StartsWith(s, pat)
    ensures RemoveAll(s, pat) == [s[0]] + RemoveAll(s[1..], pat)
  {
  }

  /** Trimming a string with no white space at either end changes nothing. */
  lemma TrimTrimmed(s: string)
    requires IsTrimmed(s)
    ensures Trim(s) == s
  {
    assert TrimStart(s) == s by { if |s| > 0 { assert !IsWhitespace(s[0]); } }
    assert TrimEnd(s) == s by { if |s| > 0 { assert !IsWhitespace(s[|s| - 1]); } }
  }

  /** A character other than a one-character separator joins the first piece. */
  lemma SplitConsChar(c: char, t: string, sep: string)
    requires |sep| == 1 && c != sep[0]
    ensures Split([c] + t, sep) == [[c] + Split(t, sep)[0]] + Split(t, sep)[1..]
  {
    var s := [c] + t;
    assert s[0] == c;
    assert !StartsWith(s, sep);
    assert s[1..] == t;
  }

  /** A leading space makes no difference to the trimmed result. */
  lemma TrimLeadingSpace(x: string)
    ensures Trim([' '] + x) == Trim(x)
  {
    var s := [' '] + x;
    assert s[1..] == x;
    assert TrimStart(s) == TrimStart(x);
  }

  /** Trailing white space after a trimmed string is dropped. */
  lemma TrimTrailingBlank(s: string, pad: string)
    requires IsTrimmed(s) && IsBlank(pad) && s != ""
    ensures Trim(s + pad) == s
  {
    var t := s + pad;
    assert t[0] == s[0];
    assert TrimStart(t) == t;
    TrimEndBlank(s, pad);
  }

  lemma {:induction false} TrimEndBlank(s: string, pad: string)
    requires IsTrimmed(s) && IsBlank(pad) && s != ""
    ensures TrimEnd(s + pad) == s
    decreases |pad|
  {
    var t := s + pad;
    if |pad| == 0 {
      assert t == s;
    } else {
      assert t[|t| - 1] == pad[|pad| - 1];
      assert t[..|t| - 1] == s + pad[..|pad| - 1];
      TrimEndBlank(s, pad[..|pad| - 1]);
    }
  }

  /** A string that does not start with white space keeps its first
      character when trimmed. */
  lemma TrimKeepsFirst(s: string)
    requires |s| > 0 && !IsWhitespace(s[0])
    ensures Trim(s) != "" && Trim(s)[0] == s[0]
  {
    assert TrimStart(s) == s;
  }

  /** Trimming drops one leading white-space character in front of a trimmed string. */
  lemma TrimOneLeading(s: string)
    requires |s| > 0 && IsWhitespace(s[0]) && IsTrimmed(s[1..])
    ensures Trim(s) == s[1..]
  {
    assert TrimStart(s[1..]) == s[1..];
    assert TrimStart(s) == s[1..];
    assert TrimEnd(s[1..]) == s[1..];
  }

  lemma JoinTwo(a: string, b: string, sep: string)
    ensures Join([a, b], sep) == a + sep + b
  {
    assert [a, b][1..] == [b];
  }

  // ---------------------------------------------------------------- regrouping
  //
  // Small facts about where the pieces of a concatenation sit. They carry no
  // meaning of their own: the proofs about prompts and worked examples, whose
  // strings are long concatenations of literals, call them so that the
  // verifier does not have to rediscover associativity in a large context.

  /** Cutting `p + s` inside `s`, after `j` of its characters. */
  lemma CutAfterPrefix(w: string, p: string, s: string, j: nat, at: nat)
    requires w == p + s && j <= |s| && at == |p| + j
    ensures w[..at] == p + s[..j] && w[at..] == s[j..]
  {
    assert w[..at] == p + s[..j] by {
      assert forall i | 0 <= i < at :: w[..at][i] == (p + s[..j])[i];
    }
  }

  /** A blank-bounded middle of a suffix `line[n..]` is one of `line`. */
  lemma CutOfSuffix(line: string, n: nat, s: string, r: string, k: int)
    requires n <= |line| && s == line[n..]
    requires 0 <= k && k + |r| <= |s| && r == s[k..k + |r|] && IsBlank(s[..k]) && IsBlank(s[k + |r|..])
    ensures n + k + |r| <= |line| && r == line[n + k..n + k + |r|]
    ensures IsBlank(line[n..n + k]) && IsBlank(line[n + k + |r|..])
  {
    SliceOfSuffix(line, n, s, k, k + |r|, n + k, n + k + |r|);
  }

  /** Slices of a suffix `line[n..]` are slices of `line` shifted by `n`
      (to `lo == n + k` and `hi == n + m`). */
  lemma SliceOfSuffix(line: string, n: nat, s: string, k: nat, m: nat, lo: nat, hi: nat)
    requires n <= |line| && s == line[n..] && k <= m <= |s| && lo == n + k && hi == n + m
    ensures s[k..m] == line[lo..hi] && s[..k] == line[n..lo] && s[m..] == line[hi..]
  {
  }

  lemma PrefixOfConcat(a: string, b: string)
    ensures StartsWith(a + b, a)
  {
    assert (a + b)[..|a|] == a;
  }

  lemma SuffixOfConcat(a: string, b: string)
    ensures EndsWith(a + b, b)
  {
    assert (a + b)[|a + b| - |b|..] == b;
  }

  /** The layout of a string assembled from six pieces: it opens with the
      first, closes with the last three and with the last, and cutting off the
      first one or two pieces leaves the rest. */
  lemma SixPieces(a: string, b: string, c: string, d: string, e: string, f: string)
    ensures StartsWith(a + b + c + d + e + f, a)
    ensures EndsWith(a + b + c + d + e + f, d + e + f)
    ensures EndsWith(a + b + c + d + e + f, f)
    ensures (a + b + c + d + e + f)[|a|..] == b + c + d + e + f
    ensures |a| + |b| <= |a + b + c + d + e + f|
    ensures (a + b + c + d + e + f)[|a| + |b|..] == c + d + e + f
  {
    SixPiecesFront(a, b, c, d, e, f);
    SixPiecesBack(a, b, c, d, e, f);
  }

  lemma SixPiecesFront(a: string, b: string, c: string, d: string, e: string, f: string)
    ensures StartsWith(a + b + c + d + e + f, a)
    ensures (a + b + c + d + e + f)[|a|..] == b + c + d + e + f
    ensures (a + b + c + d + e + f)[|a| + |b|..] == c + d + e + f
  {
    var s := a + b + c + d + e + f;
    assert s[..|a|] == a;
    assert s[|a|..] == b + c + d + e + f;
    assert s[|a| + |b|..] == c + d + e + f;
  }

  lemma SixPiecesBack(a: string, b: string, c: string, d: string, e: string, f: string)
    ensures EndsWith(a + b + c + d + e + f, d + e + f)
    ensures EndsWith(a + b + c + d + e + f, f)
  {
    var s := a + b + c + d + e + f;
    assert s[|s| - |d + e + f|..] == d + e + f;
  }

  lemma DropPrefix(a: string, b: string)
    ensures (a + b)[|a|..] == b
  {
  }

  lemma GroupMiddle(a: string, b: string, c: string, d: string)
    ensures a + b + c + d == a + (b + c + d)
  {
  }

  /** Regrouping a nine-piece concatenation after its third piece. */
  lemma GroupAfterThree(p1: string, p2: string, p3: string,
                        q1: string, q2: string, q3: string, q4: string, q5: string, q6: string)
    ensures p1 + p2 + p3 + q1 + q2 + q3 + q4 + q5 + q6 == p1 + (p2 + p3 + (q1 + q2 + q3 + q4 + q5 + q6))
    ensures p2 + q1 + q2 + q3 + q4 + q5 + q6 == p2 + (q1 + q2 + q3 + q4 + q5 + q6)
  {
  }

  /** Regrouping a ten-piece concatenation around its sixth piece. */
  lemma GroupAroundSixth(x1: string, x2: string, x3: string, x4: string, x5: string, m: string,
                         y1: string, y2: string, y3: string, y4: string)
    ensures x1 + x2 + x3 + x4 + x5 + m + y1 + y2 + y3 + y4
         == (x1 + x2 + x3 + x4 + x5) + m + (y1 + y2 + y3 + y4)
    ensures (x1 + x2 + x3 + x4 + x5) + (y1 + y2 + y3 + y4)
         == x1 + x2 + x3 + x4 + x5 + y1 + y2 + y3 + y4
  {
  }

  /** Regrouping a six-piece concatenation from the right. */
  lemma GroupFromRight(p1: string, p2: string, p3: string, p4: string, p5: string, p6: string)
    ensures p1 + p2 + p3 + p4 + p5 + p6 == p1 + p2 + (p3 + (p4 + p5 + p6))
  {
  }

  lemma PrefixOfFour(a: string, b: string, c: string, d: string)
    ensures StartsWith(a + b + c + d, a)
  {
    assert (a + b + c + d)[..|a|] == a;
  }

  lemma PrefixShorten(s: string, p: string, q: string)
    requires StartsWith(s, p + q)
    ensures StartsWith(s, p)
  {
    assert s[..|p|] == (p + q)[..|p|];
  }

  /** Two strings that differ at a position both reach do not share a prefix
      that long. */
  lemma DifferAt(s: string, p: string, k: nat)
    requires k < |p| && k < |s| && s[k] != p[k]
    ensures !StartsWith(s, p)
  {
    if |p| <= |s| {
      assert s[..|p|][k] == s[k];
    }
  }
}

=== FILE: wrappers.dfy ===
/** The optional value used wherever the application treats a value as possibly
    absent: an omitted request field, an unset environment variable, a failed
    JSON parse, a key missing from a lookup table. */
module Wrappers {

  datatype Option<+T> = None | Some(value: T)
}
